=== FILE: README.md ===
# CriptaBot listing deduplication, modelled in Dafny

CriptaBot polls cryptocurrency exchanges and posts a chat message the first
time it sees a listing. It has two kinds of source. REST announcers list
the pairs an exchange trades. CMS announcers scrape announcement pages of
Binance, OKX, Bybit and Bitget and pull a ticker out of each title. One
SQLite table, `listings`, remembers every `(exchange, symbol, market)` key
already seen. When that table is empty at start-up, a bootstrap fills it
without sending anything.

This project models that engine:

- `wrappers.dfy` (`Wrappers`): `Option` (Python's `None`-or-value) and the
  JSON scalars a decoded response may hold.
- `text.dfy` (`Text`): the parts of Python's string model the code relies
  on. This covers `re.IGNORECASE` letters, `\s`, `\b`, `str.upper`,
  `s[:-n]` (where `s[:-0]` is empty), the truth value of a JSON value, and
  `str()` of one.
- `ticker.dfy` (`Ticker`): the `TICKER_RX` search the four scrapers share.
  It is stated two ways: declaratively (which alternatives fit where) and
  operationally (leftmost position, first alternative first, greedy group
  with backtracking). Lemmas prove the two agree. Then come upper-casing
  and the suffix loop, which removes at most one suffix.
- `announcement.dfy` (`AnnouncerBase`): the `Announcement` record and
  `key()`, plus the abstract announcer. It also holds the shared "one
  candidate per item, kept in order" collection that each scraper's loop
  performs. `Announcement` is a datatype value, so like the frozen
  dataclass it cannot change after construction.
- `binance.dfy`, `okx.dfy`, `bybit.dfy`, `bitget.dfy`: each scraper's
  `fetch` after decoding. Each has a specification (`Parse` per item, the
  whole list by `Collect`) and a `Fetch` method whose loop is proved equal
  to it.
- `store.dfy` (`SeenStore`): the `listings` table as a class over a
  `map<(string, string, string), string>` from key to source. The map
  itself gives the `UNIQUE(exchange, symbol, market)` constraint.
- `detection.dfy` (`Detection`): `is_dated_symbol` as a regex search,
  `is_future` with an explicit `now`, and `_get_url`.
- `runners.dfy` (`Runners`): one pass of the REST runner, one pass of the
  CMS runner, bootstrap, and the start-up gate. A pass has a specification
  function and a method on the store. The method returns the ordered
  effects: a row written (`Mark`) or a message sent (`Sent`).

Behaviour of the code that the model keeps, and that is easy to miss:

- Symbols are not normalised anywhere. Keys are the raw strings the
  sources give, upper-cased only by the scrapers' own `.upper()`. An empty
  symbol is not dropped: `(USDT)` yields the symbol `""`.
- Every CMS row is stored under the market label `"Unknown"`, with a
  capital U (`main.py:122`, `main.py:169`), and the CMS runner looks
  for exactly that key (`main.py:159`).
- The CMS runner sends the message before it stores the key
  (`main.py:168-169`). The REST runner stores first (`main.py:137-140`).
- Neither bootstrap's CMS step nor the CMS runner looks at an
  announcement's date or at dated symbols, and `is_future` is never called.
  Dated or past announcements are stored and announced like any other.
  Only the REST side, in bootstrap and in its runner, skips dated symbols.
- Bootstrap has no exception handler. The first announcer whose `fetch`
  raises stops it, and later announcers are not consulted. The REST
  runner has no handler either. Only the CMS runner catches errors.
- `symbol_exists` is imported by `main.py` but `bot/db.py` does not define
  it. The model supplies it with the meaning its call site needs: a row
  exists for `(exchange, symbol)` under any market.

## Model

| member | source | states |
|---|---|---|
| `SeenStore.Inserted` | bot/db.py:101-106 | `INSERT OR IGNORE`: afterwards the key is present. An existing key leaves the table unchanged, source included. A new key adds exactly that key with the given source. No row is removed or edited. |
| `SeenStore.InsertIdempotent` | bot/db.py:101-106 | Inserting a key twice, whatever the second source, gives the same table as inserting it once. |
| `SeenStore.InsertCount` | bot/db.py:42 | The row count grows by one exactly when the key is new, so a key is never stored twice. |
| `SeenStore.HasSymbolKept` | bot/db.py:91-106 | A table that only grows keeps every symbol it had, under some market. |
| `SeenStore.ListingStore.constructor` | bot/db.py:34-44 | A new table has no rows. |
| `SeenStore.ListingStore.IsEmpty` | bot/db.py:64-67 | `db_is_empty` is true iff there is no row. It has no `modifies` clause, so it changes nothing. |
| `SeenStore.ListingStore.AlreadySeen` | bot/db.py:70-88 | `already_seen` is true iff the exact `(exchange, symbol, market)` key is stored. It changes nothing. |
| `SeenStore.ListingStore.SymbolExists` | main.py:118-119 | The missing `symbol_exists`: true iff some row has this exchange and symbol, under any market. |
| `SeenStore.ListingStore.MarkSeen` | bot/db.py:91-106 | `mark_seen` leaves the table `Inserted` describes. Afterwards the key is seen, the table is not empty, and every earlier row is kept unchanged. |
| `Detection.IsDatedSymbol` | main.py:56-64 | A dated symbol has at least six characters and ends in a digit or in a final newline. `DatedIffSuffix` gives the exact condition. |
| `Detection.SixDigitsIff` | main.py:56 | `\d{6}$` is found iff the symbol ends in six digits, or ends in six digits followed by one final newline. |
| `Detection.DateTagIff` | main.py:57 | `-\d{2}[A-Z]{3}\d{2}$` is found iff the symbol ends in such a tag, or ends in one followed by a final newline. |
| `Detection.DatedIffSuffix` | main.py:59-64 | `is_dated_symbol` holds iff the symbol ends in six digits or in `-DDMMMYY` (capital letters), possibly followed by one final newline. |
| `Detection.DatedExamples` | main.py:59-64 | `BTCUSD250613` and `BTCUSDT-13JUN25` are dated, and so is `BTCUSD250613` with a trailing newline. `BTCUSDT` and `BTCUSDT-13jun25` are not. |
| `Detection.IsFuture` | main.py:83-97 | False for `None` and for a string the parser rejects. Otherwise true iff the instant, with a naive time read as UTC, is after `now`. |
| `Detection.NaiveIsUtc` | main.py:95-96 | A naive time gives the same answer as the same wall clock with a UTC offset of zero. |
| `Detection.FutureAntitone` | main.py:97 | A time in the future relative to `now` is also in the future for every earlier `now`. |
| `Detection.GetUrl` | main.py:66-70 | The link is the announcement's own `details_url`, `None` included. The attribute always exists, so the default never applies. |
| `Runners.ApiMessage` | main.py:140-143 | The REST message opens with the exchange in bold, names the listed symbol inside `<code>…</code>` right after the fixed text, and ends with the market in parentheses. It is one line when the key's parts have no line break. |
| `Runners.CmsHead` | main.py:163 | The CMS head line opens with the exchange in bold and ends with the announced symbol inside `<code>…</code>`. It has no line break when the exchange and the symbol have none. |
| `Runners.CmsMessage` | main.py:163-166 | The CMS message is longer than its head line exactly when the URL is present and non-empty, and then a line break follows the head. |
| `Runners.CmsMessageHead` | main.py:163-166 | Every CMS message starts with its head line, whatever the announcement holds. |
| `Runners.CmsMessageUrlLine` | main.py:163-166 | When the exchange and the symbol hold no line break, the CMS message has a line break iff the URL is present and non-empty, and after it comes exactly the URL. |
| `Runners.ApiRun` | main.py:132-137 | A REST pass reports at most one key per yielded symbol, and every reported key belongs to the announcer's exchange. `ApiRunGrowth`, `ApiRunCovers` and `ApiRunSilent` state its effect on the rows. |
| `Runners.ApiTrace` | main.py:137-143 | A REST pass has two effects per reported key, and every row it writes has source `api`. `ApiTraceShape` gives the order. |
| `Runners.ApiTraceShape` | main.py:137-143 | In a REST pass, each reported key is first stored with source `api`, and then its message is sent. |
| `Runners.ApiRunGrowth` | main.py:132-144 | A REST pass only adds rows. The new rows are exactly the reported keys, each with source `api`. Each was absent before, and each is reported once, even if yielded twice. |
| `Runners.ApiRunCovers` | main.py:132-137 | After a REST pass, every non-dated symbol yielded is stored. Every reported key belongs to a non-dated symbol that was yielded. |
| `Runners.ApiRunOrder` | main.py:132-137 | A REST pass reports in yield order. Report `j` is the key of a non-dated yielded symbol at index `idx[j]`, the indices strictly increase, and no earlier non-dated symbol has that key. |
| `Runners.ApiRunSilent` | main.py:133-136 | A REST pass over symbols that are all dated or already stored sends nothing and writes nothing. |
| `Runners.ApiDuplicateOnce` | main.py:135-137 | A pair yielded twice in one pass is announced once. |
| `Runners.ApiCycle` | main.py:129-145 | One loop body of `_runner_api` on the store. The new table and the ordered effects are those of `ApiRun` and `ApiTrace`. An exception from `fetch` ends the runner rather than the pass. |
| `Runners.CmsRun` | main.py:157-169 | A CMS pass reports at most one announcement per yielded one, and reports only yielded announcements. `CmsRunGrowth` and `CmsRunCovers` state its effect on the rows. |
| `Runners.CmsTrace` | main.py:163-169 | A CMS pass has two effects per reported announcement, and every row it writes is an `Unknown` row with source `cms`. `CmsTraceShape` gives the order. |
| `Runners.CmsTraceShape` | main.py:163-169 | In a CMS pass, each reported announcement's message is sent first, and then its `Unknown` key is stored with source `cms`. |
| `Runners.CmsRunGrowth` | main.py:159-169 | A CMS pass only adds rows. Every new row is the `Unknown` key of a reported announcement, stored with source `cms` and absent before. No key is reported twice. |
| `Runners.CmsRunCovers` | main.py:157-169 | After a CMS pass, every yielded announcement's `Unknown` key is stored. Only yielded announcements are reported. |
| `Runners.CmsRunOrder` | main.py:157-169 | A CMS pass reports in yield order. Report `j` is the yielded announcement at index `idx[j]`, the indices strictly increase, and no earlier announcement has the same key. |
| `Runners.CmsIgnoresDates` | main.py:157-169 | The CMS runner does not filter dated symbols: an announcement for a dated symbol is reported. |
| `Runners.FormatCmsMessage` | main.py:163-166 | The statements of `_runner_cms` that build the message (head line, then `"\n" + url` only when the URL is non-empty) produce exactly `CmsMessage`. |
| `Runners.CmsCycle` | main.py:149-175 | One loop body of `_runner_cms` on the store. The new table and the ordered effects are those of `CmsRun` and `CmsTrace`. The pass always ends in the sleep, even when `fetch` raised after yielding. |
| `Runners.SeedApi` | main.py:104-110 | Every row bootstrap's REST step adds belongs to the exchange being seeded and has source `api`. |
| `Runners.SeedCms` | main.py:115-122 | Every row bootstrap's CMS step adds is stored under the `Unknown` market. |
| `Runners.BootApi` | main.py:104-110 | The REST phase of bootstrap ends without an exception iff no REST `fetch` raised. Otherwise it ends with the exception of the first one that raised. |
| `Runners.BootCms` | main.py:115-122 | The CMS phase of bootstrap ends without an exception iff no CMS `fetch` raised. Otherwise it ends with the exception of the first one that raised. |
| `Runners.Bootstrap` | main.py:101-125 | Bootstrap ends without an exception iff no `fetch` raised in either phase. An exception in the REST phase skips the CMS phase entirely. |
| `Runners.SeedApiSpec` | main.py:104-110 | Bootstrap's REST step keeps every row and stores every non-dated symbol. Every row it adds is the key of a non-dated symbol it was given, so dated symbols are never stored. Starting from `api`-only rows, it adds only `api` rows. |
| `Runners.SeedCmsGrows` | main.py:115-122 | Bootstrap's CMS step keeps every row. |
| `Runners.SeedCmsCovers` | main.py:115-122 | After bootstrap's CMS step, every announced symbol is stored under some market. |
| `Runners.SeedCmsNewRows` | main.py:118-122 | A row added by bootstrap's CMS step is an `Unknown` row with source `cms`, for an announcement whose symbol had no row under any market. |
| `Runners.BootApiGrows` | main.py:104-110 | However the REST phase of bootstrap ends, it keeps every row. From `api`-only rows it adds only `api` rows. |
| `Runners.BootApiStores` | main.py:104-110 | If no REST `fetch` raised, the REST phase stored every non-dated symbol of every REST announcer. |
| `Runners.BootApiOnlyNonDated` | main.py:104-110 | However the REST phase of bootstrap ends, every row it adds is the key of a non-dated symbol that some REST announcer yielded. |
| `Runners.BootCmsNewRows` | main.py:115-122 | However the CMS phase of bootstrap ends, every row it adds has source `cms`. |
| `Runners.BootCmsGrows` | main.py:115-122 | However the CMS phase of bootstrap ends, it keeps every row. |
| `Runners.BootstrapStoresApi` | main.py:101-110 | A bootstrap from the empty table with no exception stores every non-dated REST symbol under its own market, with source `api`. Conversely, however it ends, every `api` row is the key of a non-dated REST symbol, so a dated symbol is never stored. |
| `Runners.BootstrapThenApiSilent` | main.py:132-137 | After such a bootstrap, a REST pass that sees the same symbols again sends nothing and writes nothing. |
| `Runners.CmsAfterBootstrapReannounces` | main.py:118-122 | Bootstrap skips a CMS announcement for a symbol already trading. The steady-state CMS runner looks only for the `Unknown` row, so it announces that symbol on its first pass. |
| `Runners.SeedApiStore` | main.py:104-110 | The REST step of bootstrap on the store leaves the table `SeedApi` describes. |
| `Runners.SeedCmsStore` | main.py:115-122 | The CMS step of bootstrap on the store leaves the table `SeedCms` describes. |
| `Runners.RunBootstrap` | main.py:101-125 | `bootstrap` on the store: REST announcers, then CMS announcers. It sends no message. The first exception stops it. The result equals `Bootstrap`. |
| `Runners.StartUp` | main.py:180-182 | Bootstrap runs iff the table is empty. Otherwise the table is unchanged. |
| `AnnouncerBase.Announcement.Key` | bot/ann_cms/base.py:14-15 | The key is the exchange, then `:`, then the symbol. `KeyIgnoresUrl`, `KeyInjective` and `KeyCollision` state what that implies. |
| `AnnouncerBase.KeyIgnoresUrl` | bot/ann_cms/base.py:14-15 | Two announcements that differ only in `details_url` have the same key. |
| `AnnouncerBase.KeyInjective` | bot/ann_cms/base.py:14-15 | For exchange names without `:`, equal keys mean equal exchange and equal symbol. |
| `AnnouncerBase.KeyCollision` | bot/ann_cms/base.py:14-15 | Without that condition the key is ambiguous: `a:b`/`c` and `a`/`b:c` share a key. |
| `AnnouncerBase.AbstractFetch` | bot/ann_cms/base.py:23-26 | Awaiting the abstract `fetch` coroutine produces nothing and raises `NotImplementedError`. The base class's `name` is the constant `AbstractName`, `"abstract"`. |
| `AnnouncerBase.Collect` | bot/ann_cms/binance.py:53-74 | A scraper loop yields at most one announcement per item. |
| `AnnouncerBase.CollectIndex` | bot/ann_cms/binance.py:53-74 | Each announcement comes from its own item, in item order. Every item that parses is collected. |
| `AnnouncerBase.CollectNothing` | bot/ann_cms/binance.py:53-74 | Items that never parse produce nothing. |
| `Text.ToUpper` | bot/ann_cms/binance.py:62 | `str.upper` keeps the length, leaves no lower-case letter, and maps each character to the same letter ignoring case. |
| `Text.SpaceRun` | bot/ann_cms/binance.py:41 | Greedy `\s+` takes the whole run of whitespace: every character in it is whitespace, and the next one is not. |
| `Text.WillThenSplit` | bot/ann_cms/binance.py:41 | For a word starting with a letter, `Will\s+word` with the greedy run matches iff it matches with some run length, so backtracking gains nothing. |
| `Text.DropLast` | bot/ann_cms/binance.py:65 | `raw[:-n]` is a prefix of `raw`. For `0 < n <= len(raw)`, it plus the last `n` characters is `raw`. |
| `Text.NatToDecimal` | bot/ann_cms/binance.py:71 | `str()` of a natural number is non-empty decimal digits with no leading zero, and `0` is `"0"`. |
| `Text.DecimalRoundTrip` | bot/ann_cms/binance.py:71 | Reading back the decimal rendering of a natural number gives that number, so distinct natural numbers render distinctly. |
| `Text.PyStrZeroPadded` | bot/ann_cms/bitget.py:40 | `str(v) == "00000"` holds only for the string `"00000"`: never for a number, a boolean or `None`. |
| `Ticker.RunLength` | bot/ann_cms/binance.py:34-36 | A greedy `[A-Z0-9_-]` run of at most `cap` characters: all ticker characters, and stopped only by the cap, the end, or a non-ticker character. |
| `Ticker.ParenAt` | bot/ann_cms/binance.py:34 | The first alternative tried at `i`. It has no contract of its own: `ParenAtSpec` states that it reports group length `k` iff `(`, `k` ticker characters (2 to 15) and `)` appear at `i`. |
| `Ticker.ParenAtSpec` | bot/ann_cms/binance.py:34 | The first alternative matches at `i` with group length `k` iff `(`, `k` ticker characters (2 to 15) and `)` appear there. |
| `Ticker.PairFrom` | bot/ann_cms/binance.py:36 | Backtracking from length `k` finds the longest length up to `k` followed by a quote, or reports there is none. |
| `Ticker.PairAt` | bot/ann_cms/binance.py:36 | The second alternative tried at `i`. It has no contract of its own: `PairFrom` and `PairAtSpec` state that it reports the longest group of 2 to 15 ticker characters followed by a quote. |
| `Ticker.PairAtSpec` | bot/ann_cms/binance.py:36 | The second alternative matches at `i` with the longest group length that is followed by a quote. |
| `Ticker.MatchAt` | bot/ann_cms/binance.py:33-38 | An attempt at position `i` reports a match starting at `i`. |
| `Ticker.MatchAtSpec` | bot/ann_cms/binance.py:33-38 | An attempt at `i` succeeds iff some alternative fits there. The group has 2 to 15 ticker characters. The parenthesised form wins. The bare form takes the longest group followed by a quote. |
| `Ticker.ParenCase` | bot/ann_cms/binance.py:33-38 | Proof step of `MatchAtSpec`. When the first alternative reports length `k`, it fits, and the attempt returns that group with the parenthesised flag. |
| `Ticker.PairCase` | bot/ann_cms/binance.py:33-38 | Proof step of `MatchAtSpec`. When only the second alternative reports length `k`, no parenthesised form fits, no longer bare group fits, and the attempt returns the bare group. |
| `Ticker.PairTaken` | bot/ann_cms/binance.py:33-38 | Proof step of `MatchAtSpec`. When the first alternative fails and the second reports `k`, the attempt returns the bare group of length `k`. |
| `Ticker.NoCase` | bot/ann_cms/binance.py:33-38 | Proof step of `MatchAtSpec`. When both alternatives fail, no alternative fits at `i`. |
| `Ticker.MaximalFit` | bot/ann_cms/binance.py:36 | Proof step of `NoCase`. If some bare group length fits, a longest one exists. |
| `Ticker.SearchFrom` | bot/ann_cms/binance.py:59 | Scanning from `i` returns the first position where an attempt succeeds, or none when no position from `i` on matches. |
| `Ticker.Search` | bot/ann_cms/binance.py:59 | A match starts within the title, and its group has 2 to 15 ticker characters. `SearchLeftmost` says where the match is. |
| `Ticker.SearchLeftmost` | bot/ann_cms/binance.py:59-61 | `TICKER_RX.search` finds a match at a position where the pattern matches, and no earlier position matches. It finds none iff no position matches. |
| `Ticker.StripFrom` | bot/ann_cms/binance.py:63-66 | The loop's outcome from entry `i` on. The result is a prefix of `raw`. It is `raw` when no suffix from `i` on fits. When some does, it is `raw[:-len(suf)]` for the first such suffix, in list order. |
| `Ticker.StripSuffix` | bot/ann_cms/binance.py:63-66 | The `for ... break` loop computes `StripFrom` from the first entry. |
| `Ticker.StripRemovesOne` | bot/ann_cms/bitget.py:51-54 | With non-empty suffixes, the result plus the first fitting suffix is `raw`, so exactly one suffix is removed. |
| `Ticker.ExtractSymbol` | bot/ann_cms/binance.py:59-67 | A symbol exists iff the search matches. It has at most 15 characters, all in `[A-Z0-9_-]` with no lower-case letter left. It is the upper-cased group of the match: unchanged when no quote suffix fits, and with the first fitting suffix removed otherwise. |
| `Ticker.QuoteInParensIsEmpty` | bot/ann_cms/binance.py:62-67 | `(USDT)` yields the empty symbol. |
| `Ticker.DoubledQuoteKeepsOne` | bot/ann_cms/binance.py:63-66 | Only one suffix is removed: `(xusdtusdt)` yields `XUSDT`. |
| `Ticker.PairWithoutParens` | bot/ann_cms/binance.py:36 | `arbusdt` yields `ARB`: the greedy group gives the quote back. |
| `BinanceCms.Articles` | bot/ann_cms/binance.py:52 | The list is `articles`. It is `articleList` when `articles` is missing or empty. |
| `BinanceCms.UpcomingAt` | bot/ann_cms/binance.py:41 | The filter matches at `i` iff there is a word boundary at `i`, then `Will`, then some positive number of whitespace characters, then `List` or `Add` followed by a word boundary (any case). Matching with the greedy whitespace run agrees with the regex's backtracking. |
| `BinanceCms.IsUpcoming` | bot/ann_cms/binance.py:56 | The filter is a search: it passes iff `UpcomingAt` holds at some position, and `UpcomingAt` states the phrase. Its own contract adds only that a title shorter than `Will Add` never passes. |
| `BinanceCms.DetailsUrl` | bot/ann_cms/binance.py:69-73 | A truthy `code` gives the detail page for `code`. Otherwise a truthy `id` gives the detail page for `id`. Otherwise the article's `url` is used as given, `None` included. |
| `BinanceCms.Announcements` | bot/ann_cms/binance.py:52-74 | At most one announcement comes from each article. `Provenance` states which. |
| `BinanceCms.Parse` | bot/ann_cms/binance.py:54-74 | An article yields an announcement iff its title has the word-bounded `Will List`/`Will Add` and a ticker. The announcement has exchange `Binance`, the extracted symbol, and the URL chosen from `code`, then `id`, then `url`. |
| `BinanceCms.Provenance` | bot/ann_cms/binance.py:53-74 | Output order follows article order. Each announcement comes from a distinct article with the phrase and that article's symbol and URL. Every article with the phrase and a ticker is announced. |
| `BinanceCms.NothingWithoutPhrase` | bot/ann_cms/binance.py:56-57 | A page with no upcoming-listing title yields nothing. |
| `BinanceCms.Fetch` | bot/ann_cms/binance.py:46-74 | The article loop yields exactly the specified announcements. A failed request raises before anything is yielded. |
| `BinanceCms.PhraseNeedsWordBoundary` | bot/ann_cms/binance.py:41 | `Will List ARB` passes the filter. `Will Listing` fails it at every position, because of the trailing `\b`. |
| `OkxCms.UpcomingAt` | bot/ann_cms/okx.py:27 | The filter matches at `i` iff `Will`, some positive number of whitespace characters and `List` appear there, or `Token Listing` does (any case). Matching with the greedy whitespace run agrees with the regex's backtracking. |
| `OkxCms.IsUpcoming` | bot/ann_cms/okx.py:43 | The filter is a search: it passes iff `UpcomingAt` holds at some position, and `UpcomingAt` states the phrases. Its own contract adds only that a title shorter than `Will List` never passes. |
| `OkxCms.Yield` | bot/ann_cms/okx.py:41-58 | At most one announcement comes from each card. `Provenance` states which. |
| `OkxCms.CardUrl` | bot/ann_cms/okx.py:56-57 | An `href` starting with `http` is used unchanged. Any other is appended to `https://www.okx.com`. |
| `OkxCms.Parse` | bot/ann_cms/okx.py:42-58 | A card yields an announcement iff its title has `Will\s+List` or `Token Listing` (any case) and a ticker. The announcement has exchange `OKX`, the extracted symbol, and the card's URL. |
| `OkxCms.Provenance` | bot/ann_cms/okx.py:41-58 | Output order follows card order, with at most one announcement per card. Every card with the phrase and a ticker is announced. |
| `OkxCms.Fetch` | bot/ann_cms/okx.py:34-58 | The card loop yields exactly the specified announcements. A failed request raises before anything is yielded. |
| `OkxCms.UrlExamples` | bot/ann_cms/okx.py:56-57 | `/help/x` becomes `https://www.okx.com/help/x`. `https://a` is kept. |
| `OkxCms.PhraseInsideWord` | bot/ann_cms/okx.py:27 | The OKX filter has no word boundaries: `Token Listings` passes. |
| `BybitCms.Parse` | bot/ann_cms/bybit.py:48-64 | An article yields an announcement iff its title has `New Listing` (any case) and a ticker. The announcement has exchange `Bybit` and the article's `url` as given, `None` included. |
| `BybitCms.StatusOk` | bot/ann_cms/bybit.py:44-45 | The status passes iff `retCode` is present, not a string, and falsy: the integer `0` or `False`, which Python compares equal to `0`. |
| `BybitCms.IsUpcoming` | bot/ann_cms/bybit.py:33 | The filter passes iff `New Listing` occurs somewhere in the title, ignoring case (the body is that search). Its own contract adds only that a title shorter than `New Listing` never passes. |
| `BybitCms.Yield` | bot/ann_cms/bybit.py:44-64 | A failing status yields nothing. Otherwise at most one announcement comes from each article. `Provenance` states which. |
| `BybitCms.StatusGate` | bot/ann_cms/bybit.py:44-45 | A `retCode` other than `0` (or `False`) yields nothing. The string `"0"` is such a code. |
| `BybitCms.Provenance` | bot/ann_cms/bybit.py:47-64 | With a good status, output order follows the list. Each announcement comes from a distinct article and carries its URL. Every article with the phrase and a ticker is announced. |
| `BybitCms.Fetch` | bot/ann_cms/bybit.py:38-64 | The status gate and the article loop yield exactly the specified announcements. A failed request raises before anything is yielded. |
| `BitgetCms.StatusOk` | bot/ann_cms/bitget.py:40-41 | The gate `str(code) == "00000"` passes only for the string `"00000"`: never for a number, a boolean or a missing code. |
| `BitgetCms.UpcomingAt` | bot/ann_cms/bitget.py:29 | The filter matches at `i` iff `Will`, some positive number of whitespace characters and `List` appear there, or `New Listing`, `Initial Listing` or `Launch` does (any case). |
| `BitgetCms.IsUpcoming` | bot/ann_cms/bitget.py:45 | The filter is a search: it passes iff `UpcomingAt` holds at some position, and `UpcomingAt` states the phrases. Its own contract adds only that a title shorter than its shortest phrase, `Launch`, never passes. |
| `BitgetCms.Yield` | bot/ann_cms/bitget.py:40-58 | A code other than `"00000"` yields nothing. Otherwise at most one announcement comes from each article. `Provenance` states which. |
| `BitgetCms.Parse` | bot/ann_cms/bitget.py:44-58 | An article yields an announcement iff its title has one of the four phrases and a ticker (quotes `USDT`, `USDC`, `PERP`), and `annUrl` is non-empty. The announcement has exchange `Bitget` and that URL. |
| `BitgetCms.Provenance` | bot/ann_cms/bitget.py:40-58 | Any other code yields nothing. With the success code, output order follows `data`. Every announcement has a non-empty URL. Every qualifying article is announced. |
| `BitgetCms.Fetch` | bot/ann_cms/bitget.py:34-58 | The status gate and the article loop yield exactly the specified announcements. A failed request raises before anything is yielded. |

## Left out

- HTTP requests, `raise_for_status`, JSON decoding and BeautifulSoup
  selection are foreign calls. Each `Fetch` takes the decoded payload, and
  `None` stands for any failure before the loop. A `null` where a list or
  object is expected, non-scalar JSON values, and a number or boolean where
  text is expected are not modelled. An example of the last is a numeric
  `url` in a Binance or Bybit article, which these scrapers pass on as
  `details_url`; the model's `url` is a string or absent.
  Floating-point codes (`retCode` of `0.0`) are not modelled either.
- Exceptions raised inside a scraper's loop, and those from `send` or the
  database, are not modelled. An exception is modelled only where a
  `fetch` stops, after some items.
- `connect`, the WAL and foreign-key pragmas, and directory creation are
  left out, as is the `id`/`created` columns' content. The table is the map
  from key to source.
- asyncio task creation, `gather`, the `while True` loops, the sleeps and
  the poll intervals are left out. One pass of each runner is modelled,
  sequentially, so interleavings of concurrent runners on the shared table
  are not modelled.
- Telegram delivery (`bot/telegram.py`) and `bot/core.py` are not part of
  this model. A message sent is a `Sent` effect carrying its text, so
  `send`'s own handling of the text is not modelled.
- AnnouncerBase.AbstractFetch: models awaiting the abstract `fetch`. Its
  body has no `yield`, so it is a plain coroutine; an `async for` over it
  fails earlier, with `TypeError`, and that difference is not modelled.
- Logging and `_fmt` (date formatting, unused by the engine) are left out.
- Detection.IsFuture: the date parser, `datetime.now` and time zones are
  parameters (`parse`, `now`, an offset in seconds). Parsing itself and
  calendar arithmetic are not modelled.
- `bot/ann_api/wrappers.py` is not part of this model. Each REST announcer
  is its exchange name and the sequence of `(name, market_type)` pairs its
  `fetch` yields.
- `bot/ann_cms/__init__.py` (import aliasing) and the `AnnouncerProto`
  protocol (typing only) are not part of this model.
- Character classes are ASCII for letters, case folding and `\b`. Python's
  Unicode case equivalences under `IGNORECASE` (such as `ſ` matching `s`,
  or the Kelvin sign matching `k`) are not modelled, nor are non-ASCII `\w`
  and `\d` characters. `\s` is Python's full whitespace set. `str.upper`
  is ASCII only.
- The OKX card title is taken as already joined and stripped by the HTML
  parser.

=== FILE: announcement.dfy ===
/**
 * The record every announcement scraper yields, the abstract scraper's
 * defaults, and the ordered "keep what parses" loop that all scrapers share.
 */
module AnnouncerBase {
  import opened Wrappers

  /**
   * A listing announcement. Being a datatype value it cannot change after
   * construction, as the frozen dataclass cannot. `detailsUrl` is `None`
   * when a scraper passed Python's `None` through.
   */
  datatype Announcement = Announcement(exchange: string, symbol: string, detailsUrl: Option<string>) {
    /** `key()`: the deduplication key, exchange then `:` then symbol. */
    function Key(): (k: string)
      ensures |k| == |exchange| + 1 + |symbol|
      ensures k[..|exchange|] == exchange && k[|exchange|] == ':' && k[|exchange| + 1..] == symbol
    {
      exchange + ":" + symbol
    }
  }

  /** Why a scraper's `fetch` stopped early. */
  datatype FetchError = NotImplemented | SourceError

  /**
   * What the caller of a scraper's `fetch()` observes: the announcements it
   * produces, in order, then either normal completion or an exception.
   */
  datatype Fetched<T> = Fetched(yielded: seq<T>, error: Option<FetchError>)

  /** `AbstractAnnouncer.name`. */
  const AbstractName := "abstract"

  /**
   * `AbstractAnnouncer.fetch`, a coroutine (its body has no `yield`):
   * awaiting it raises `NotImplementedError` and produces nothing.
   */
  function AbstractFetch(): (r: Fetched<Announcement>)
    ensures r.yielded == [] && r.error == Some(NotImplemented)
  {
    Fetched([], Some(NotImplemented))
  }

  /** The key does not depend on the details URL. */
  lemma KeyIgnoresUrl(a: Announcement, url: Option<string>)
    ensures a.(detailsUrl := url).Key() == a.Key()
  {
  }

  /**
   * For exchange names without a colon (all four scrapers' names), equal keys
   * mean equal exchange and symbol.
   */
  lemma KeyInjective(a: Announcement, b: Announcement)
    requires ':' !in a.exchange && ':' !in b.exchange
    ensures a.Key() == b.Key() <==> a.exchange == b.exchange && a.symbol == b.symbol
  {
    if a.Key() == b.Key() {
      var ka, kb := a.Key(), b.Key();
      assert forall i :: 0 <= i < |a.exchange| ==> ka[i] == a.exchange[i] != ':';
      assert forall i :: 0 <= i < |b.exchange| ==> kb[i] == b.exchange[i] != ':';
      assert ka[|a.exchange|] == ':' && kb[|b.exchange|] == ':';
      assert |a.exchange| == |b.exchange|;
      assert a.exchange == ka[..|a.exchange|];
      assert b.exchange == kb[..|b.exchange|];
      assert a.symbol == ka[|a.exchange| + 1..];
      assert b.symbol == kb[|b.exchange| + 1..];
    }
  }

  /** Without that condition the key is ambiguous. */
  lemma KeyCollision()
    ensures Announcement("a:b", "c", None).Key() == Announcement("a", "b:c", None).Key()
  {
  }

  /**
   * The scrapers' loop: one candidate per input item, kept when `parse`
   * yields an announcement, in input order.
   */
  function Collect<T>(items: seq<T>, parse: T -> Option<Announcement>): (r: seq<Announcement>)
    ensures |r| <= |items|
    decreases |items|
  {
    if items == [] then []
    else
      var init := Collect(items[..|items| - 1], parse);
      match parse(items[|items| - 1])
      case Some(a) => init + [a]
      case None => init
  }

  /**
   * Every collected announcement comes from its own item, in item order, and
   * every item that parses is collected.
   */
  lemma {:induction false} CollectIndex<T>(items: seq<T>, parse: T -> Option<Announcement>) returns (idx: seq<nat>)
    ensures |idx| == |Collect(items, parse)|
    ensures forall j :: 0 <= j < |idx| ==> idx[j] < |items| && parse(items[idx[j]]) == Some(Collect(items, parse)[j])
    ensures forall j, j' :: 0 <= j < j' < |idx| ==> idx[j] < idx[j']
    ensures forall i :: 0 <= i < |items| && parse(items[i]).Some? ==> i in idx
    decreases |items|
  {
    if items == [] {
      idx := [];
    } else {
      var n := |items| - 1;
      var init := items[..n];
      var idx0 := CollectIndex(init, parse);
      assert forall i :: 0 <= i < n ==> init[i] == items[i];
      match parse(items[n])
      case Some(a) =>
        idx := idx0 + [n];
      case None =>
        idx := idx0;
    }
  }

  /** Items that never parse produce nothing. */
  lemma CollectNothing<T>(items: seq<T>, parse: T -> Option<Announcement>)
    requires forall i :: 0 <= i < |items| ==> parse(items[i]).None?
    ensures Collect(items, parse) == []
  {
    var idx := CollectIndex(items, parse);
  }
}

=== FILE: binance.dfy ===
/**
 * `BinanceAnnouncer.fetch` after the HTTP request and JSON decoding: the
 * article list, the upcoming-listing filter, the ticker, the detail URL.
 */
module BinanceCms {
  import opened Wrappers
  import opened Text
  import Ticker
  import opened AnnouncerBase

  const Name := "Binance"
  /** `SUFFIXES`, also the quote alternatives of `TICKER_RX`. */
  const Suffixes := ["USDT", "USDC"]
  const DetailPrefix := "https://www.binance.com/en/support/announcement/detail/"

  /** One decoded article; a missing `title` is the empty string. */
  datatype Article = Article(title: string, code: Option<Scalar>, id: Option<Scalar>, url: Option<string>)

  /** The decoded `data` object: its two possible article lists. */
  datatype Payload = Payload(articles: Option<seq<Article>>, articleList: Option<seq<Article>>)

  /** `articles`, or `articleList` when `articles` is missing or empty. */
  function Articles(p: Payload): (r: seq<Article>)
    ensures p.articles.Some? && p.articles.value != [] ==> r == p.articles.value
    ensures p.articles.None? || p.articles.value == [] ==> r == p.articleList.GetOr([])
  {
    if p.articles.Some? && p.articles.value != [] then p.articles.value else p.articleList.GetOr([])
  }

  /** `UPCOMING_RX` = `\bWill\s+(List|Add)\b`, IGNORECASE, matched at `i`. */
  predicate UpcomingAt(t: string, i: nat)
    ensures UpcomingAt(t, i) <==>
      && Boundary(t, i)
      && exists n: nat ::
        || (WillSplitAt(t, i, n, "list") && Boundary(t, i + 4 + n + 4))
        || (WillSplitAt(t, i, n, "add") && Boundary(t, i + 4 + n + 3))
  {
    WillThenSplit(t, i, "list");
    WillThenSplit(t, i, "add");
    && Boundary(t, i)
    && CiLitAt(t, i, "will")
    && ((WillThenAt(t, i, "list") && Boundary(t, WillThenEnd(t, i, "list")))
        || (WillThenAt(t, i, "add") && Boundary(t, WillThenEnd(t, i, "add"))))
  }

  /** `UPCOMING_RX.search(title)` succeeds. */
  predicate IsUpcoming(t: string)
    ensures IsUpcoming(t) ==> |t| >= |"will add"|
  {
    exists i | 0 <= i <= |t| :: UpcomingAt(t, i)
  }

  /** `code or id`, then the detail page when that is truthy, else the article's `url`. */
  function DetailsUrl(art: Article): (r: Option<string>)
    ensures Truthy(art.code) ==> r == Some(DetailPrefix + PyStr(art.code))
    ensures !Truthy(art.code) && Truthy(art.id) ==> r == Some(DetailPrefix + PyStr(art.id))
    ensures !Truthy(art.code) && !Truthy(art.id) ==> r == art.url
  {
    var code := if Truthy(art.code) then art.code else art.id;
    if Truthy(code) then Some(DetailPrefix + PyStr(code)) else art.url
  }

  /** What one article yields: at most one announcement. */
  function Parse(art: Article): (r: Option<Announcement>)
    ensures r.Some? <==> IsUpcoming(art.title) && Ticker.Search(art.title, Suffixes).Some?
    ensures r.Some? ==> r.value.exchange == Name && r.value.detailsUrl == DetailsUrl(art)
    ensures r.Some? ==> Ticker.ExtractSymbol(art.title, Suffixes) == Some(r.value.symbol)
  {
    if !IsUpcoming(art.title) then None
    else
      match Ticker.ExtractSymbol(art.title, Suffixes)
      case None => None
      case Some(sym) => Some(Announcement(Name, sym, DetailsUrl(art)))
  }

  /** Everything one successful fetch yields, in article order. */
  function Announcements(p: Payload): (r: seq<Announcement>)
    ensures |r| <= |Articles(p)|
  {
    Collect(Articles(p), Parse)
  }

  /**
   * Each announcement comes from its own article, in article order: an
   * article whose title carries the phrase and a ticker, whose symbol is the
   * extracted one and whose URL is chosen from `code`, `id` and `url`.
   */
  lemma Provenance(p: Payload) returns (idx: seq<nat>)
    ensures |idx| == |Announcements(p)|
    ensures forall j, j' :: 0 <= j < j' < |idx| ==> idx[j] < idx[j']
    ensures forall j :: 0 <= j < |idx| ==> idx[j] < |Articles(p)|
    ensures forall j :: 0 <= j < |idx| ==>
      var art, a := Articles(p)[idx[j]], Announcements(p)[j];
      && a.exchange == Name
      && IsUpcoming(art.title)
      && Ticker.ExtractSymbol(art.title, Suffixes) == Some(a.symbol)
      && a.detailsUrl == DetailsUrl(art)
    ensures forall i ::
      (0 <= i < |Articles(p)| && IsUpcoming(Articles(p)[i].title)
       && Ticker.Search(Articles(p)[i].title, Suffixes).Some?) ==> i in idx
  {
    idx := CollectIndex(Articles(p), Parse);
    forall j | 0 <= j < |idx| ensures Parse(Articles(p)[idx[j]]) == Some(Announcements(p)[j]) {
    }
  }

  /** A page with no upcoming-listing title yields nothing. */
  lemma NothingWithoutPhrase(p: Payload)
    requires forall i :: 0 <= i < |Articles(p)| ==> !IsUpcoming(Articles(p)[i].title)
    ensures Announcements(p) == []
  {
    CollectNothing(Articles(p), Parse);
  }

  /**
   * `fetch()`: `None` stands for a failed request or undecodable body, which
   * raises before anything is yielded.
   */
  method Fetch(response: Option<Payload>) returns (result: Fetched<Announcement>)
    ensures response.None? ==> result == Fetched([], Some(SourceError))
    ensures response.Some? ==> result == Fetched(Announcements(response.value), None)
  {
    if response.None? {
      return Fetched([], Some(SourceError));
    }
    var arts := Articles(response.value);
    var anns: seq<Announcement> := [];
    var i := 0;
    while i < |arts|
      invariant 0 <= i <= |arts|
      invariant anns == Collect(arts[..i], Parse)
    {
      var art := arts[i];
      assert arts[..i + 1][..i] == arts[..i];
      if IsUpcoming(art.title) {
        var m := Ticker.Search(art.title, Suffixes);
        if m.Some? {
          var raw := ToUpper(m.value.group);
          raw := Ticker.StripSuffix(raw, Suffixes);
          anns := anns + [Announcement(Name, raw, DetailsUrl(art))];
        }
      }
      i := i + 1;
    }
    assert arts[..i] == arts;
    result := Fetched(anns, None);
  }

  /** The phrase must stand as whole words. */
  lemma PhraseNeedsWordBoundary()
    ensures IsUpcoming("Will List ARB")
    ensures !UpcomingAt("Will Listing", 0)
    ensures !IsUpcoming("Will Listing")
  {
    var t := "Will List ARB";
    assert !IsSpace(t[5]);
    assert SpaceRun(t, 4) == 1;
    assert CiLitAt(t, 5, "list");
    assert Boundary(t, 9);
    assert UpcomingAt(t, 0);
    var u := "Will Listing";
    assert !IsSpace(u[5]);
    assert SpaceRun(u, 4) == 1;
    assert Lower(u[5]) != Lower("add"[0]);
    assert !Boundary(u, 9);
    forall i | 0 < i <= |u| ensures !UpcomingAt(u, i) {
      if i + 4 <= |u| {
        assert Lower(u[i]) != Lower("will"[0]);
      }
    }
  }
}

=== FILE: bitget.dfy ===
/**
 * `BitgetAnnouncer.fetch` after the API request and JSON decoding: the
 * status gate, the listing filter, the ticker, and the URL requirement.
 */
module BitgetCms {
  import opened Wrappers
  import opened Text
  import Ticker
  import opened AnnouncerBase

  const Name := "Bitget"
  /** Bitget also strips the perpetual-contract suffix. */
  const Suffixes := ["USDT", "USDC", "PERP"]
  const SuccessCode := "00000"

  /** One decoded article; a missing `annTitle` is the empty string, a missing `annUrl` is `None`. */
  datatype Article = Article(annTitle: string, annUrl: Option<string>)

  /** The decoded body: `code`, and `data` (`None` when missing). */
  datatype Payload = Payload(code: Option<Scalar>, data: Option<seq<Article>>)

  /** `str(data.get("code")) == "00000"`: only the string `"00000"` passes, since no number, boolean or `None` prints that way. */
  predicate StatusOk(code: Option<Scalar>)
    ensures StatusOk(code) <==> code == Some(Str(SuccessCode))
  {
    PyStrZeroPadded(code);
    PyStr(code) == SuccessCode
  }

  /**
   * `UPCOMING_RX` = `Will\s+List|New Listing|Initial Listing|Launch`,
   * IGNORECASE, matched at `i`.
   */
  predicate UpcomingAt(t: string, i: nat)
    ensures UpcomingAt(t, i) <==>
      || (exists n: nat :: WillSplitAt(t, i, n, "list"))
      || CiLitAt(t, i, "new listing")
      || CiLitAt(t, i, "initial listing")
      || CiLitAt(t, i, "launch")
  {
    WillThenSplit(t, i, "list");
    || WillThenAt(t, i, "list")
    || CiLitAt(t, i, "new listing")
    || CiLitAt(t, i, "initial listing")
    || CiLitAt(t, i, "launch")
  }

  /** `UPCOMING_RX.search(title)` succeeds. */
  predicate IsUpcoming(t: string)
    ensures IsUpcoming(t) ==> |t| >= |"launch"|
  {
    exists i | 0 <= i <= |t| :: UpcomingAt(t, i)
  }

  /** A truthy `annUrl`: present and non-empty. */
  predicate HasUrl(art: Article) {
    art.annUrl.Some? && art.annUrl.value != ""
  }

  /** What one article yields: nothing without a URL. */
  function Parse(art: Article): (r: Option<Announcement>)
    ensures r.Some? <==> IsUpcoming(art.annTitle) && Ticker.Search(art.annTitle, Suffixes).Some? && HasUrl(art)
    ensures r.Some? ==> r.value.exchange == Name && r.value.detailsUrl == art.annUrl
    ensures r.Some? ==> Ticker.ExtractSymbol(art.annTitle, Suffixes) == Some(r.value.symbol)
  {
    if !IsUpcoming(art.annTitle) then None
    else
      match Ticker.ExtractSymbol(art.annTitle, Suffixes)
      case None => None
      case Some(sym) => if HasUrl(art) then Some(Announcement(Name, sym, art.annUrl)) else None
  }

  /** Everything one successful fetch yields, in list order. */
  function Yield(p: Payload): (r: seq<Announcement>)
    ensures !StatusOk(p.code) ==> r == []
    ensures |r| <= |p.data.GetOr([])|
  {
    if StatusOk(p.code) then Collect(p.data.GetOr([]), Parse) else []
  }

  /**
   * With the success code each announcement comes from its own article, in
   * order, and carries a non-empty URL; every article with the phrase, a
   * ticker and a URL is announced. Any other code yields nothing.
   */
  lemma Provenance(p: Payload) returns (idx: seq<nat>)
    ensures !StatusOk(p.code) ==> Yield(p) == []
    ensures |idx| == |Yield(p)|
    ensures forall j, j' :: 0 <= j < j' < |idx| ==> idx[j] < idx[j']
    ensures forall j :: 0 <= j < |idx| ==> idx[j] < |p.data.GetOr([])|
    ensures forall j :: 0 <= j < |idx| ==>
      var art, a := p.data.GetOr([])[idx[j]], Yield(p)[j];
      && a.exchange == Name
      && IsUpcoming(art.annTitle)
      && Ticker.ExtractSymbol(art.annTitle, Suffixes) == Some(a.symbol)
      && a.detailsUrl.Some? && a.detailsUrl.value != ""
      && a.detailsUrl == art.annUrl
    ensures StatusOk(p.code) ==> forall i ::
      (0 <= i < |p.data.GetOr([])| && IsUpcoming(p.data.GetOr([])[i].annTitle)
       && Ticker.Search(p.data.GetOr([])[i].annTitle, Suffixes).Some?
       && HasUrl(p.data.GetOr([])[i])) ==> i in idx
  {
    var arts := p.data.GetOr([]);
    if StatusOk(p.code) {
      idx := CollectIndex(arts, Parse);
      forall j | 0 <= j < |idx| ensures Parse(arts[idx[j]]) == Some(Yield(p)[j]) {
      }
    } else {
      idx := [];
    }
  }

  /**
   * `fetch()`: `None` stands for a failed request or undecodable body, which
   * raises before anything is yielded.
   */
  method Fetch(response: Option<Payload>) returns (result: Fetched<Announcement>)
    ensures response.None? ==> result == Fetched([], Some(SourceError))
    ensures response.Some? ==> result == Fetched(Yield(response.value), None)
  {
    if response.None? {
      return Fetched([], Some(SourceError));
    }
    var data := response.value;
    if PyStr(data.code) != SuccessCode {
      return Fetched([], None);
    }
    var arts := data.data.GetOr([]);
    var anns: seq<Announcement> := [];
    var i := 0;
    while i < |arts|
      invariant 0 <= i <= |arts|
      invariant anns == Collect(arts[..i], Parse)
    {
      var art := arts[i];
      assert arts[..i + 1][..i] == arts[..i];
      if IsUpcoming(art.annTitle) {
        var m := Ticker.Search(art.annTitle, Suffixes);
        if m.Some? {
          var raw := ToUpper(m.value.group);
          raw := Ticker.StripSuffix(raw, Suffixes);
          if art.annUrl.Some? && art.annUrl.value != "" {
            anns := anns + [Announcement(Name, raw, art.annUrl)];
          }
        }
      }
      i := i + 1;
    }
    assert arts[..i] == arts;
    result := Fetched(anns, None);
  }
}

=== FILE: bybit.dfy ===
/**
 * `BybitAnnouncer.fetch` after the API request and JSON decoding: the
 * status gate, the listing filter, the ticker, the URL passed through.
 */
module BybitCms {
  import opened Wrappers
  import opened Text
  import Ticker
  import opened AnnouncerBase

  const Name := "Bybit"
  const Suffixes := ["USDT", "USDC"]

  /** One decoded article; a missing `title` is the empty string, a missing `url` is `None`. */
  datatype Article = Article(title: string, url: Option<string>)

  /** The decoded body: `retCode`, and `result.list` (`None` when either key is missing). */
  datatype Payload = Payload(retCode: Option<Scalar>, list: Option<seq<Article>>)

  /**
   * `data.get("retCode") != 0` is false: Python compares the integer `0` and
   * `False` equal to `0`; a string, `None` or any other number stops the fetch.
   */
  predicate StatusOk(code: Option<Scalar>)
    ensures StatusOk(code) <==> code.Some? && !code.value.Str? && !Truthy(code)
  {
    code == Some(Int(0)) || code == Some(Bool(false))
  }

  /** `UPCOMING_RX` = `New Listing`, IGNORECASE. */
  predicate IsUpcoming(t: string)
    ensures IsUpcoming(t) ==> |t| >= |"new listing"|
  {
    exists i | 0 <= i <= |t| :: CiLitAt(t, i, "new listing")
  }

  /** What one article yields; its URL is whatever the API gave, possibly `None`. */
  function Parse(art: Article): (r: Option<Announcement>)
    ensures r.Some? <==> IsUpcoming(art.title) && Ticker.Search(art.title, Suffixes).Some?
    ensures r.Some? ==> r.value.exchange == Name && r.value.detailsUrl == art.url
    ensures r.Some? ==> Ticker.ExtractSymbol(art.title, Suffixes) == Some(r.value.symbol)
  {
    if !IsUpcoming(art.title) then None
    else
      match Ticker.ExtractSymbol(art.title, Suffixes)
      case None => None
      case Some(sym) => Some(Announcement(Name, sym, art.url))
  }

  /** Everything one successful fetch yields, in list order. */
  function Yield(p: Payload): (r: seq<Announcement>)
    ensures !StatusOk(p.retCode) ==> r == []
    ensures |r| <= |p.list.GetOr([])|
  {
    if StatusOk(p.retCode) then Collect(p.list.GetOr([]), Parse) else []
  }

  /** A non-zero status yields nothing, and is not an error. */
  lemma StatusGate(p: Payload)
    ensures !StatusOk(p.retCode) ==> Yield(p) == []
    ensures StatusOk(p.retCode) && p.list.Some? ==> Yield(p) == Collect(p.list.value, Parse)
    ensures Yield(Payload(Some(Str("0")), p.list)) == []
  {
  }

  /**
   * With a good status each announcement comes from its own article, in
   * order, carrying that article's URL, and every article whose title has
   * the phrase and a ticker is announced.
   */
  lemma Provenance(p: Payload) returns (idx: seq<nat>)
    requires StatusOk(p.retCode)
    ensures |idx| == |Yield(p)|
    ensures forall j, j' :: 0 <= j < j' < |idx| ==> idx[j] < idx[j']
    ensures forall j :: 0 <= j < |idx| ==> idx[j] < |p.list.GetOr([])|
    ensures forall j :: 0 <= j < |idx| ==>
      var art, a := p.list.GetOr([])[idx[j]], Yield(p)[j];
      && a.exchange == Name
      && IsUpcoming(art.title)
      && Ticker.ExtractSymbol(art.title, Suffixes) == Some(a.symbol)
      && a.detailsUrl == art.url
    ensures forall i ::
      (0 <= i < |p.list.GetOr([])| && IsUpcoming(p.list.GetOr([])[i].title)
       && Ticker.Search(p.list.GetOr([])[i].title, Suffixes).Some?) ==> i in idx
  {
    var arts := p.list.GetOr([]);
    idx := CollectIndex(arts, Parse);
    forall j | 0 <= j < |idx| ensures Parse(arts[idx[j]]) == Some(Yield(p)[j]) {
    }
  }

  /**
   * `fetch()`: `None` stands for a failed request or undecodable body, which
   * raises before anything is yielded.
   */
  method Fetch(response: Option<Payload>) returns (result: Fetched<Announcement>)
    ensures response.None? ==> result == Fetched([], Some(SourceError))
    ensures response.Some? ==> result == Fetched(Yield(response.value), None)
  {
    if response.None? {
      return Fetched([], Some(SourceError));
    }
    var data := response.value;
    if !(data.retCode == Some(Int(0)) || data.retCode == Some(Bool(false))) {
      return Fetched([], None);
    }
    var arts := data.list.GetOr([]);
    var anns: seq<Announcement> := [];
    var i := 0;
    while i < |arts|
      invariant 0 <= i <= |arts|
      invariant anns == Collect(arts[..i], Parse)
    {
      var art := arts[i];
      assert arts[..i + 1][..i] == arts[..i];
      if IsUpcoming(art.title) {
        var m := Ticker.Search(art.title, Suffixes);
        if m.Some? {
          var raw := ToUpper(m.value.group);
          raw := Ticker.StripSuffix(raw, Suffixes);
          anns := anns + [Announcement(Name, raw, art.url)];
        }
      }
      i := i + 1;
    }
    assert arts[..i] == arts;
    result := Fetched(anns, None);
  }
}

=== FILE: detection.dfy ===
/**
 * The pure helpers of `main.py`: which exchange symbols are dated futures,
 * whether a timestamp lies in the future, and where an announcement's link is.
 */
module Detection {
  import opened Wrappers
  import opened Text
  import opened AnnouncerBase

  /**
   * Where a pattern ending in `$` may stop: at the end of the string, or
   * just before a final newline.
   */
  predicate AtEnd(s: string, p: nat) {
    p == |s| || (p + 1 == |s| && s[p] == '\n')
  }

  /** `DATE_RX1` = `\d{6}$` matches at `i`. */
  predicate SixDigitsAt(s: string, i: nat) {
    i + 6 <= |s| && (forall j :: i <= j < i + 6 ==> IsDigit(s[j])) && AtEnd(s, i + 6)
  }

  /** `-`, two digits, three capitals, two digits: `-13JUN25`. */
  predicate DateTag(t: string) {
    && |t| == 8
    && t[0] == '-'
    && IsDigit(t[1]) && IsDigit(t[2])
    && IsUpperLetter(t[3]) && IsUpperLetter(t[4]) && IsUpperLetter(t[5])
    && IsDigit(t[6]) && IsDigit(t[7])
  }

  /** `DATE_RX2` = `-\d{2}[A-Z]{3}\d{2}$` matches at `i`. */
  predicate DateTagAt(s: string, i: nat) {
    i + 8 <= |s| && DateTag(s[i..i + 8]) && AtEnd(s, i + 8)
  }

  /** `is_dated_symbol`: either pattern is found somewhere by `search`. */
  predicate IsDatedSymbol(sym: string)
    ensures IsDatedSymbol(sym) ==> |sym| >= 6 && (IsDigit(sym[|sym| - 1]) || sym[|sym| - 1] == '\n')
  {
    || (exists i | 0 <= i <= |sym| :: SixDigitsAt(sym, i))
    || (exists i | 0 <= i <= |sym| :: DateTagAt(sym, i))
  }

  /** The string ends in six digits. */
  predicate EndsSixDigits(t: string) {
    |t| >= 6 && forall j :: |t| - 6 <= j < |t| ==> IsDigit(t[j])
  }

  /** The string ends in a date tag. */
  predicate EndsDateTag(t: string) {
    |t| >= 8 && DateTag(t[|t| - 8..])
  }

  /** The string's own ending is six digits or a date tag. */
  predicate EndsDated(t: string) {
    EndsSixDigits(t) || EndsDateTag(t)
  }

  /** `DATE_RX1` is found exactly when the symbol, or the symbol before a final newline, ends in six digits. */
  lemma SixDigitsIff(sym: string)
    ensures (exists i | 0 <= i <= |sym| :: SixDigitsAt(sym, i)) <==>
      EndsSixDigits(sym) || (|sym| > 0 && sym[|sym| - 1] == '\n' && EndsSixDigits(sym[..|sym| - 1]))
  {
    var n := |sym|;
    if n > 0 && sym[n - 1] == '\n' && EndsSixDigits(sym[..n - 1]) {
      assert SixDigitsAt(sym, n - 7);
    }
    if EndsSixDigits(sym) {
      assert SixDigitsAt(sym, n - 6);
    }
    if exists i | 0 <= i <= n :: SixDigitsAt(sym, i) {
      var i :| 0 <= i <= n && SixDigitsAt(sym, i);
      if i + 6 < n {
        var t := sym[..n - 1];
        assert forall j :: |t| - 6 <= j < |t| ==> t[j] == sym[j];
      }
    }
  }

  /** `DATE_RX2` is found exactly when the symbol, or the symbol before a final newline, ends in a date tag. */
  lemma DateTagIff(sym: string)
    ensures (exists i | 0 <= i <= |sym| :: DateTagAt(sym, i)) <==>
      EndsDateTag(sym) || (|sym| > 0 && sym[|sym| - 1] == '\n' && EndsDateTag(sym[..|sym| - 1]))
  {
    var n := |sym|;
    if n > 0 && sym[n - 1] == '\n' && EndsDateTag(sym[..n - 1]) {
      var t := sym[..n - 1];
      assert sym[n - 9..n - 1] == t[|t| - 8..];
      assert DateTagAt(sym, n - 9);
    }
    if EndsDateTag(sym) {
      assert DateTagAt(sym, n - 8);
    }
    if exists i | 0 <= i <= n :: DateTagAt(sym, i) {
      var i :| 0 <= i <= n && DateTagAt(sym, i);
      if i + 8 < n {
        var t := sym[..n - 1];
        assert t[|t| - 8..] == sym[i..i + 8];
      } else {
        assert sym[n - 8..] == sym[i..i + 8];
      }
    }
  }

  /**
   * A symbol is dated exactly when it ends in six digits or a date tag,
   * possibly followed by one final newline (where `$` also matches).
   */
  lemma DatedIffSuffix(sym: string)
    ensures IsDatedSymbol(sym) <==>
      EndsDated(sym) || (|sym| > 0 && sym[|sym| - 1] == '\n' && EndsDated(sym[..|sym| - 1]))
  {
    SixDigitsIff(sym);
    DateTagIff(sym);
  }

  /** The two shapes of the source's own examples are dated; spot and perpetual names are not. */
  lemma DatedExamples()
    ensures IsDatedSymbol("BTCUSD250613")
    ensures IsDatedSymbol("BTCUSDT-13JUN25")
    ensures !IsDatedSymbol("BTCUSDT")
    ensures !IsDatedSymbol("BTCUSDT-13jun25")
    ensures IsDatedSymbol("BTCUSD250613\n")
  {
    DatedIffSuffix("BTCUSD250613\n");
    assert "BTCUSD250613\n"[..12] == "BTCUSD250613";
    DatedIffSuffix("BTCUSD250613");
    DatedIffSuffix("BTCUSDT-13JUN25");
    DatedIffSuffix("BTCUSDT");
    DatedIffSuffix("BTCUSDT-13jun25");
    assert !IsDigit("BTCUSDT"[6]);
    assert !IsDigit("BTCUSDT-13jun25"[10]);
    assert "BTCUSDT-13jun25"[7..][3] == 'j';
  }

  /**
   * A `datetime`: wall-clock seconds and, when it is timezone-aware, the
   * offset from UTC in seconds. Naive values have no offset.
   */
  datatype Moment = Moment(wall: int, offset: Option<int>)

  /** What `is_future` may be passed: `None`, a string, or a `datetime`. */
  datatype Stamp = NoStamp | Text(text: string) | At(moment: Moment)

  /** The instant a moment denotes; a naive moment is read as UTC. */
  function Instant(m: Moment): int {
    m.wall - m.offset.GetOr(0)
  }

  /**
   * `is_future`. `parse` stands for the date parser, `None` where it raises;
   * `now` is the current UTC instant.
   */
  function IsFuture(ts: Stamp, parse: string -> Option<Moment>, now: int): (r: bool)
    ensures ts.NoStamp? ==> !r
    ensures ts.Text? && parse(ts.text).None? ==> !r
    ensures ts.At? ==> (r <==> Instant(ts.moment) > now)
    ensures ts.Text? && parse(ts.text).Some? ==> (r <==> Instant(parse(ts.text).value) > now)
  {
    match ts
    case NoStamp => false
    case Text(s) =>
      (match parse(s)
       case None => false
       case Some(m) => Instant(m) > now)
    case At(m) => Instant(m) > now
  }

  /** A naive time is the same instant as that wall clock in UTC. */
  lemma NaiveIsUtc(wall: int, parse: string -> Option<Moment>, now: int)
    ensures IsFuture(At(Moment(wall, None)), parse, now) == IsFuture(At(Moment(wall, Some(0))), parse, now)
  {
  }

  /** A moment that is in the future stays so for every earlier `now`. */
  lemma FutureAntitone(ts: Stamp, parse: string -> Option<Moment>, now: int, earlier: int)
    requires earlier <= now && IsFuture(ts, parse, now)
    ensures IsFuture(ts, parse, earlier)
  {
  }

  /**
   * `_get_url`: the announcement's `details_url` (the attribute always
   * exists, so the default is never used); Python's `None` when absent.
   */
  function GetUrl(ann: Announcement): (r: Option<string>)
    ensures r.Some? ==> r == ann.detailsUrl
    ensures ann.detailsUrl.Some? ==> r.Some?
  {
    ann.detailsUrl
  }
}

=== FILE: okx.dfy ===
/**
 * `OkxAnnouncer.fetch` after the page download and HTML parsing: the cards
 * of the new-listings section, the listing filter, the ticker, the URL.
 */
module OkxCms {
  import opened Wrappers
  import opened Text
  import Ticker
  import opened AnnouncerBase

  const Name := "OKX"
  const Suffixes := ["USDT", "USDC"]
  const Site := "https://www.okx.com"

  /**
   * One `a.article-item` card: its text (joined with spaces and stripped by
   * the HTML parser) and its `href`, the empty string when absent.
   */
  datatype Card = Card(title: string, href: string)

  /** `UPCOMING_RX` = `Will\s+List|Token Listing`, IGNORECASE, matched at `i`. */
  predicate UpcomingAt(t: string, i: nat)
    ensures UpcomingAt(t, i) <==> (exists n: nat :: WillSplitAt(t, i, n, "list")) || CiLitAt(t, i, "token listing")
  {
    WillThenSplit(t, i, "list");
    WillThenAt(t, i, "list") || CiLitAt(t, i, "token listing")
  }

  /** `UPCOMING_RX.search(title)` succeeds. */
  predicate IsUpcoming(t: string)
    ensures IsUpcoming(t) ==> |t| >= |"will list"|
  {
    exists i | 0 <= i <= |t| :: UpcomingAt(t, i)
  }

  /** An absolute `href` is kept; anything else is appended to the site root. */
  function CardUrl(href: string): (r: string)
    ensures StartsWith(href, "http") ==> r == href
    ensures !StartsWith(href, "http") ==> StartsWith(r, Site) && r[|Site|..] == href
  {
    if StartsWith(href, "http") then href else Site + href
  }

  /** What one card yields: at most one announcement, always with a URL. */
  function Parse(card: Card): (r: Option<Announcement>)
    ensures r.Some? <==> IsUpcoming(card.title) && Ticker.Search(card.title, Suffixes).Some?
    ensures r.Some? ==> r.value.exchange == Name && r.value.detailsUrl == Some(CardUrl(card.href))
    ensures r.Some? ==> Ticker.ExtractSymbol(card.title, Suffixes) == Some(r.value.symbol)
  {
    if !IsUpcoming(card.title) then None
    else
      match Ticker.ExtractSymbol(card.title, Suffixes)
      case None => None
      case Some(sym) => Some(Announcement(Name, sym, Some(CardUrl(card.href))))
  }

  /** Everything one successful fetch yields, in page order. */
  function Yield(cards: seq<Card>): (r: seq<Announcement>)
    ensures |r| <= |cards|
  {
    Collect(cards, Parse)
  }

  /**
   * Each announcement comes from its own card, in page order, and every card
   * whose title carries the phrase and a ticker is announced.
   */
  lemma Provenance(cards: seq<Card>) returns (idx: seq<nat>)
    ensures |idx| == |Yield(cards)|
    ensures forall j, j' :: 0 <= j < j' < |idx| ==> idx[j] < idx[j']
    ensures forall j :: 0 <= j < |idx| ==> idx[j] < |cards|
    ensures forall j :: 0 <= j < |idx| ==>
      var card, a := cards[idx[j]], Yield(cards)[j];
      && a.exchange == Name
      && IsUpcoming(card.title)
      && Ticker.ExtractSymbol(card.title, Suffixes) == Some(a.symbol)
      && a.detailsUrl == Some(CardUrl(card.href))
    ensures forall i ::
      (0 <= i < |cards| && IsUpcoming(cards[i].title)
       && Ticker.Search(cards[i].title, Suffixes).Some?) ==> i in idx
  {
    idx := CollectIndex(cards, Parse);
    forall j | 0 <= j < |idx| ensures Parse(cards[idx[j]]) == Some(Yield(cards)[j]) {
    }
  }

  /**
   * `fetch()`: `None` stands for a failed request, which raises before
   * anything is yielded.
   */
  method Fetch(page: Option<seq<Card>>) returns (result: Fetched<Announcement>)
    ensures page.None? ==> result == Fetched([], Some(SourceError))
    ensures page.Some? ==> result == Fetched(Yield(page.value), None)
  {
    if page.None? {
      return Fetched([], Some(SourceError));
    }
    var cards := page.value;
    var anns: seq<Announcement> := [];
    var i := 0;
    while i < |cards|
      invariant 0 <= i <= |cards|
      invariant anns == Collect(cards[..i], Parse)
    {
      var card := cards[i];
      assert cards[..i + 1][..i] == cards[..i];
      if IsUpcoming(card.title) {
        var m := Ticker.Search(card.title, Suffixes);
        if m.Some? {
          var raw := ToUpper(m.value.group);
          raw := Ticker.StripSuffix(raw, Suffixes);
          var url := if StartsWith(card.href, "http") then card.href else Site + card.href;
          anns := anns + [Announcement(Name, raw, Some(url))];
        }
      }
      i := i + 1;
    }
    assert cards[..i] == cards;
    result := Fetched(anns, None);
  }

  /** Relative links are completed, absolute ones kept. */
  lemma UrlExamples()
    ensures CardUrl("/help/x") == "https://www.okx.com/help/x"
    ensures CardUrl("https://a") == "https://a"
  {
    var h := "/help/x";
    assert h[..4] != "http" by { assert h[..4][0] != "http"[0]; }
  }

  /** The filter has no word boundaries: the phrase may run on into a longer word. */
  lemma PhraseInsideWord()
    ensures IsUpcoming("OKX Token Listings")
  {
    assert UpcomingAt("OKX Token Listings", 4);
  }
}

=== FILE: runners.dfy ===
/**
 * The poll loops of `main.py`, one pass at a time: the REST runner, the CMS
 * runner, the silent bootstrap and the start-up gate in `main`.
 *
 * A pass is described by the rows it leaves and the ordered effects it has:
 * a row written (`Mark`) or a chat message sent (`Sent`).
 */
module Runners {
  import opened Wrappers
  import opened Text
  import opened AnnouncerBase
  import opened SeenStore
  import opened Detection

  const ApiSource := "api"
  const CmsSource := "cms"
  /** The market every CMS row is stored under. */
  const UnknownMarket := "Unknown"

  /** One trading pair a REST announcer yields. */
  datatype ApiSymbol = ApiSymbol(name: string, marketType: string)

  /** One REST announcer during bootstrap: its exchange and what its fetch observed. */
  datatype ApiFeed = ApiFeed(exchange: string, fetched: Fetched<ApiSymbol>)

  /** An observable step of a pass, in order. */
  datatype Effect = Mark(key: Key, source: string) | Sent(text: string)

  /** How one pass of a runner's loop body ends: in the sleep, or with an exception. */
  datatype CycleEnd = Slept | Raised(error: FetchError)

  /** The rows after a pass and what it reported, in order. */
  datatype Outcome<T> = Outcome(rows: map<Key, string>, emitted: seq<T>)

  /** The rows after bootstrap, and the exception that stopped it, if any. */
  datatype Boot = Boot(rows: map<Key, string>, error: Option<FetchError>)

  function ApiKey(exchange: string, s: ApiSymbol): Key {
    (exchange, s.name, s.marketType)
  }

  function CmsKey(ann: Announcement): Key {
    (ann.exchange, ann.symbol, UnknownMarket)
  }

  /** The REST runner's message for a new pair. */
  function ApiMessage(k: Key): (r: string)
    ensures StartsWith(r, "\U{26A1}\U{FE0F} <b>" + k.0 + "</b>") && EndsWith(r, "(" + k.2 + ")")
    ensures '\n' !in k.0 && '\n' !in k.1 && '\n' !in k.2 ==> '\n' !in r
    ensures var p := |"\U{26A1}\U{FE0F} <b>" + k.0 + "</b> добавил пару <code>"|;
      && p + |k.1| + |"</code>"| <= |r|
      && r[p..p + |k.1|] == k.1
      && r[p + |k.1|..p + |k.1| + |"</code>"|] == "</code>"
  {
    "\U{26A1}\U{FE0F} <b>" + k.0 + "</b> добавил пару <code>" + k.1 + "</code> (" + k.2 + ")"
  }

  /** The first line of the CMS runner's message. */
  function CmsHead(ann: Announcement): (r: string)
    ensures StartsWith(r, "\U{1F4F0} <b>" + ann.exchange + "</b>")
    ensures '\n' !in ann.exchange && '\n' !in ann.symbol ==> '\n' !in r
    ensures var p := |"\U{1F4F0} <b>" + ann.exchange + "</b> анонсировал листинг <code>"|;
      && p + |ann.symbol| + |"</code>"| == |r|
      && r[p..p + |ann.symbol|] == ann.symbol
      && r[p + |ann.symbol|..] == "</code>"
  {
    "\U{1F4F0} <b>" + ann.exchange + "</b> анонсировал листинг <code>" + ann.symbol + "</code>"
  }

  /** `if url:` on `_get_url(ann)`: present and non-empty. */
  predicate ShowsUrl(ann: Announcement) {
    GetUrl(ann).Some? && GetUrl(ann).value != ""
  }

  /** The CMS runner's message: the head line, then the URL on its own line when there is one. */
  function CmsMessage(ann: Announcement): (r: string)
    ensures |r| > |CmsHead(ann)| <==> ShowsUrl(ann)
    ensures ShowsUrl(ann) ==> r[|CmsHead(ann)|] == '\n'
  {
    if ShowsUrl(ann) then CmsHead(ann) + "\n" + GetUrl(ann).value else CmsHead(ann)
  }

  /** Every CMS message starts with its head line. */
  lemma CmsMessageHead(ann: Announcement)
    ensures |CmsMessage(ann)| >= |CmsHead(ann)| && CmsMessage(ann)[..|CmsHead(ann)|] == CmsHead(ann)
  {
    var h := CmsHead(ann);
    if ShowsUrl(ann) {
      assert CmsMessage(ann) == h + ("\n" + GetUrl(ann).value);
    }
  }

  /** The runner's statements that build the message: the head, then `"\n" + url` under `if url:`. */
  method FormatCmsMessage(ann: Announcement) returns (msg: string)
    ensures msg == CmsMessage(ann)
  {
    msg := CmsHead(ann);
    var url := GetUrl(ann);
    if url.Some? && url.value != "" {
      msg := msg + "\n" + url.value;
    }
  }

  /**
   * When neither the exchange nor the symbol holds a line break, the message
   * is one line, or two when the URL is non-empty, the second holding exactly the URL.
   */
  lemma CmsMessageUrlLine(ann: Announcement)
    requires '\n' !in ann.exchange && '\n' !in ann.symbol
    ensures CmsMessage(ann)[..|CmsHead(ann)|] == CmsHead(ann)
    ensures '\n' in CmsMessage(ann) <==> ShowsUrl(ann)
    ensures ShowsUrl(ann) ==> CmsMessage(ann)[|CmsHead(ann)| + 1..] == ann.detailsUrl.value
  {
    var h := CmsHead(ann);
    if ShowsUrl(ann) {
      assert CmsMessage(ann)[|h|] == '\n';
    }
  }

  // ───────────────────────── REST runner ─────────────────────────

  /**
   * One pass of `_runner_api` over the symbols `fetch` yielded: dated symbols
   * and stored keys are skipped, any other key is stored with source `api`
   * and reported. `emitted` lists the reported keys in order.
   */
  function ApiRun(exchange: string, rows: map<Key, string>, syms: seq<ApiSymbol>): (o: Outcome<Key>)
    ensures |o.emitted| <= |syms|
    ensures forall k :: k in o.emitted ==> k.0 == exchange
    decreases |syms|
  {
    if syms == [] then Outcome(rows, [])
    else
      var o := ApiRun(exchange, rows, syms[..|syms| - 1]);
      var s := syms[|syms| - 1];
      var k := ApiKey(exchange, s);
      if IsDatedSymbol(s.name) || k in o.rows then o
      else Outcome(o.rows[k := ApiSource], o.emitted + [k])
  }

  /** The effects of reporting `marked`: each key stored, then its message sent. */
  function ApiTrace(marked: seq<Key>): (t: seq<Effect>)
    ensures |t| == 2 * |marked|
    ensures forall i :: 0 <= i < |t| && t[i].Mark? ==> t[i].source == ApiSource
    decreases |marked|
  {
    if marked == [] then []
    else
      var k := marked[|marked| - 1];
      ApiTrace(marked[..|marked| - 1]) + [Mark(k, ApiSource), Sent(ApiMessage(k))]
  }

  /** Marks before sends: effect `2i` stores key `i` and effect `2i+1` announces it. */
  lemma {:induction false} ApiTraceShape(marked: seq<Key>)
    ensures |ApiTrace(marked)| == 2 * |marked|
    ensures forall i :: 0 <= i < |marked| ==>
      ApiTrace(marked)[2 * i] == Mark(marked[i], ApiSource) && ApiTrace(marked)[2 * i + 1] == Sent(ApiMessage(marked[i]))
    decreases |marked|
  {
    if marked != [] {
      var init := marked[..|marked| - 1];
      ApiTraceShape(init);
      assert forall i :: 0 <= i < |init| ==> init[i] == marked[i];
    }
  }

  /**
   * A REST pass only adds rows; each reported key is new, stored with
   * source `api`, and reported once, even when a symbol is yielded twice.
   */
  lemma {:induction false} ApiRunGrowth(exchange: string, rows: map<Key, string>, syms: seq<ApiSymbol>)
    ensures Extends(rows, ApiRun(exchange, rows, syms).rows)
    ensures forall k :: k in ApiRun(exchange, rows, syms).rows <==> k in rows || k in ApiRun(exchange, rows, syms).emitted
    ensures forall k :: k in ApiRun(exchange, rows, syms).emitted ==>
      k !in rows && ApiRun(exchange, rows, syms).rows[k] == ApiSource
    ensures forall j, j' :: 0 <= j < j' < |ApiRun(exchange, rows, syms).emitted| ==>
      ApiRun(exchange, rows, syms).emitted[j] != ApiRun(exchange, rows, syms).emitted[j']
    decreases |syms|
  {
    if syms != [] {
      ApiRunGrowth(exchange, rows, syms[..|syms| - 1]);
    }
  }

  /**
   * After a REST pass every non-dated symbol yielded is stored, and every
   * reported key is a yielded non-dated symbol.
   */
  lemma {:induction false} ApiRunCovers(exchange: string, rows: map<Key, string>, syms: seq<ApiSymbol>)
    ensures forall s :: s in syms && !IsDatedSymbol(s.name) ==> ApiKey(exchange, s) in ApiRun(exchange, rows, syms).rows
    ensures forall k :: k in ApiRun(exchange, rows, syms).emitted ==>
      exists s :: s in syms && !IsDatedSymbol(s.name) && k == ApiKey(exchange, s)
    decreases |syms|
  {
    if syms != [] {
      var init := syms[..|syms| - 1];
      ApiRunCovers(exchange, rows, init);
      assert forall s :: s in init ==> s in syms;
      assert syms == init + [syms[|syms| - 1]];
    }
  }

  /**
   * A REST pass reports in the order `fetch` yielded: report `j` is the key of
   * the non-dated symbol `idx[j]`, the indices increase, and no earlier
   * non-dated symbol has that key, so each key is reported at its first occurrence.
   */
  lemma {:induction false} ApiRunOrder(exchange: string, rows: map<Key, string>, syms: seq<ApiSymbol>) returns (idx: seq<nat>)
    ensures |idx| == |ApiRun(exchange, rows, syms).emitted|
    ensures forall j :: 0 <= j < |idx| ==>
      idx[j] < |syms| && !IsDatedSymbol(syms[idx[j]].name) && ApiRun(exchange, rows, syms).emitted[j] == ApiKey(exchange, syms[idx[j]])
    ensures forall j, j' :: 0 <= j < j' < |idx| ==> idx[j] < idx[j']
    ensures forall j, i :: 0 <= j < |idx| && 0 <= i < idx[j] && !IsDatedSymbol(syms[i].name) ==>
      ApiKey(exchange, syms[i]) != ApiRun(exchange, rows, syms).emitted[j]
    decreases |syms|
  {
    if syms == [] {
      idx := [];
    } else {
      var n := |syms| - 1;
      var init := syms[..n];
      var idx0 := ApiRunOrder(exchange, rows, init);
      assert forall i :: 0 <= i < n ==> init[i] == syms[i];
      var o := ApiRun(exchange, rows, init);
      if IsDatedSymbol(syms[n].name) || ApiKey(exchange, syms[n]) in o.rows {
        idx := idx0;
      } else {
        idx := idx0 + [n];
        ApiRunCovers(exchange, rows, init);
        assert forall i :: 0 <= i < n ==> init[i] in init;
      }
    }
  }

  /** A pass over symbols that are all dated or already stored sends nothing and writes nothing. */
  lemma {:induction false} ApiRunSilent(exchange: string, rows: map<Key, string>, syms: seq<ApiSymbol>)
    requires forall s :: s in syms && !IsDatedSymbol(s.name) ==> ApiKey(exchange, s) in rows
    ensures ApiRun(exchange, rows, syms) == Outcome(rows, [])
    decreases |syms|
  {
    if syms != [] {
      var init := syms[..|syms| - 1];
      assert forall s :: s in init ==> s in syms;
      ApiRunSilent(exchange, rows, init);
    }
  }

  /** The same pair twice in one pass is announced once. */
  lemma ApiDuplicateOnce()
    ensures ApiRun("Binance", map[], [ApiSymbol("ARBUSDT", "spot"), ApiSymbol("ARBUSDT", "spot")]).emitted
      == [("Binance", "ARBUSDT", "spot")]
  {
    DatedIffSuffix("ARBUSDT");
    assert !IsDigit("ARBUSDT"[6]);
    var syms := [ApiSymbol("ARBUSDT", "spot"), ApiSymbol("ARBUSDT", "spot")];
    assert syms[..1][..0] == [];
    assert ApiRun("Binance", map[], syms[..1]).emitted == [("Binance", "ARBUSDT", "spot")];
  }

  /**
   * `_runner_api`'s loop body: a REST pass, then the sleep. The runner has
   * no handler, so an exception from `fetch` ends it after the symbols
   * already yielded were handled.
   */
  method ApiCycle(store: ListingStore, exchange: string, feed: Fetched<ApiSymbol>) returns (trace: seq<Effect>, end: CycleEnd)
    modifies store
    ensures store.rows == ApiRun(exchange, old(store.rows), feed.yielded).rows
    ensures trace == ApiTrace(ApiRun(exchange, old(store.rows), feed.yielded).emitted)
    ensures end == if feed.error.Some? then Raised(feed.error.value) else Slept
  {
    var syms := feed.yielded;
    ghost var rows0 := store.rows;
    ghost var marked: seq<Key> := [];
    trace := [];
    var i := 0;
    while i < |syms|
      invariant 0 <= i <= |syms|
      invariant ApiRun(exchange, rows0, syms[..i]) == Outcome(store.rows, marked)
      invariant trace == ApiTrace(marked)
    {
      var sym := syms[i];
      assert syms[..i + 1][..i] == syms[..i];
      if !IsDatedSymbol(sym.name) {
        var seen := store.AlreadySeen(exchange, sym.name, sym.marketType);
        if !seen {
          store.MarkSeen(exchange, sym.name, sym.marketType, ApiSource);
          var k := (exchange, sym.name, sym.marketType);
          trace := trace + [Mark(k, ApiSource), Sent(ApiMessage(k))];
          marked := marked + [k];
        }
      }
      i := i + 1;
    }
    assert syms[..i] == syms;
    if feed.error.Some? {
      end := Raised(feed.error.value);
    } else {
      end := Slept;
    }
  }

  // ───────────────────────── CMS runner ─────────────────────────

  /**
   * One pass of `_runner_cms` over the announcements `fetch` yielded: one
   * whose `(exchange, symbol, "Unknown")` row exists is skipped, any other is
   * reported and stored with source `cms`. Dates play no part.
   */
  function CmsRun(rows: map<Key, string>, anns: seq<Announcement>): (o: Outcome<Announcement>)
    ensures |o.emitted| <= |anns|
    ensures forall a :: a in o.emitted ==> a in anns
    decreases |anns|
  {
    if anns == [] then Outcome(rows, [])
    else
      var o := CmsRun(rows, anns[..|anns| - 1]);
      var a := anns[|anns| - 1];
      assert forall b :: b in anns[..|anns| - 1] ==> b in anns;
      if CmsKey(a) in o.rows then o
      else Outcome(o.rows[CmsKey(a) := CmsSource], o.emitted + [a])
  }

  /** The effects of reporting `notified`: each message sent, then its key stored. */
  function CmsTrace(notified: seq<Announcement>): (t: seq<Effect>)
    ensures |t| == 2 * |notified|
    ensures forall i :: 0 <= i < |t| && t[i].Mark? ==> t[i].source == CmsSource && t[i].key.2 == UnknownMarket
    decreases |notified|
  {
    if notified == [] then []
    else
      var a := notified[|notified| - 1];
      CmsTrace(notified[..|notified| - 1]) + [Sent(CmsMessage(a)), Mark(CmsKey(a), CmsSource)]
  }

  /** Sends before marks: effect `2i` announces item `i` and effect `2i+1` stores its key. */
  lemma {:induction false} CmsTraceShape(notified: seq<Announcement>)
    ensures |CmsTrace(notified)| == 2 * |notified|
    ensures forall i :: 0 <= i < |notified| ==>
      CmsTrace(notified)[2 * i] == Sent(CmsMessage(notified[i])) && CmsTrace(notified)[2 * i + 1] == Mark(CmsKey(notified[i]), CmsSource)
    decreases |notified|
  {
    if notified != [] {
      var init, a := notified[..|notified| - 1], notified[|notified| - 1];
      CmsTraceShape(init);
      var t := CmsTrace(notified);
      assert t == CmsTrace(init) + [Sent(CmsMessage(a)), Mark(CmsKey(a), CmsSource)];
      forall i | 0 <= i < |notified|
        ensures t[2 * i] == Sent(CmsMessage(notified[i])) && t[2 * i + 1] == Mark(CmsKey(notified[i]), CmsSource)
      {
        if i < |init| {
          assert init[i] == notified[i];
        }
      }
    }
  }

  /**
   * A CMS pass only adds rows, all under market `Unknown` with source
   * `cms`; each reported key is new and reported once.
   */
  lemma {:induction false} CmsRunGrowth(rows: map<Key, string>, anns: seq<Announcement>)
    ensures Extends(rows, CmsRun(rows, anns).rows)
    ensures forall k :: k in CmsRun(rows, anns).rows ==>
      k in rows || exists a :: a in CmsRun(rows, anns).emitted && k == CmsKey(a)
    ensures forall a :: a in CmsRun(rows, anns).emitted ==> CmsKey(a) in CmsRun(rows, anns).rows
    ensures forall a :: a in CmsRun(rows, anns).emitted ==>
      CmsKey(a) !in rows && CmsRun(rows, anns).rows[CmsKey(a)] == CmsSource
    ensures forall j, j' :: 0 <= j < j' < |CmsRun(rows, anns).emitted| ==>
      CmsKey(CmsRun(rows, anns).emitted[j]) != CmsKey(CmsRun(rows, anns).emitted[j'])
    decreases |anns|
  {
    if anns != [] {
      CmsRunGrowth(rows, anns[..|anns| - 1]);
      var o := CmsRun(rows, anns[..|anns| - 1]);
      var a := anns[|anns| - 1];
      if CmsKey(a) !in o.rows {
        var e := o.emitted + [a];
        assert forall b :: b in e ==> b in o.emitted || b == a;
        assert forall j :: 0 <= j < |o.emitted| ==> e[j] == o.emitted[j] && e[j] in o.emitted;
      }
    }
  }

  /**
   * After a CMS pass every yielded announcement's key is stored, and every
   * reported announcement was yielded.
   */
  lemma {:induction false} CmsRunCovers(rows: map<Key, string>, anns: seq<Announcement>)
    ensures forall a :: a in anns ==> CmsKey(a) in CmsRun(rows, anns).rows
    ensures forall a :: a in CmsRun(rows, anns).emitted ==> a in anns
    decreases |anns|
  {
    if anns != [] {
      var init := anns[..|anns| - 1];
      CmsRunCovers(rows, init);
      CmsRunGrowth(rows, init);
      assert forall a :: a in init ==> a in anns;
      assert anns == init + [anns[|anns| - 1]];
    }
  }

  /**
   * A CMS pass reports in the order `fetch` yielded: report `j` is
   * announcement `idx[j]`, the indices increase, and no earlier announcement
   * has the same key, so each key is reported at its first occurrence.
   */
  lemma {:induction false} CmsRunOrder(rows: map<Key, string>, anns: seq<Announcement>) returns (idx: seq<nat>)
    ensures |idx| == |CmsRun(rows, anns).emitted|
    ensures forall j :: 0 <= j < |idx| ==> idx[j] < |anns| && CmsRun(rows, anns).emitted[j] == anns[idx[j]]
    ensures forall j, j' :: 0 <= j < j' < |idx| ==> idx[j] < idx[j']
    ensures forall j, i :: 0 <= j < |idx| && 0 <= i < idx[j] ==> CmsKey(anns[i]) != CmsKey(CmsRun(rows, anns).emitted[j])
    decreases |anns|
  {
    if anns == [] {
      idx := [];
    } else {
      var n := |anns| - 1;
      var init := anns[..n];
      var idx0 := CmsRunOrder(rows, init);
      assert forall i :: 0 <= i < n ==> init[i] == anns[i];
      var o := CmsRun(rows, init);
      if CmsKey(anns[n]) in o.rows {
        idx := idx0;
      } else {
        idx := idx0 + [n];
        CmsRunCovers(rows, init);
        assert forall i :: 0 <= i < n ==> init[i] in init;
      }
    }
  }

  /** The CMS runner does not filter dated symbols: a futures-style ticker is announced. */
  lemma CmsIgnoresDates()
    ensures IsDatedSymbol("BTCUSD250613")
    ensures CmsRun(map[], [Announcement("Bybit", "BTCUSD250613", None)]).emitted
      == [Announcement("Bybit", "BTCUSD250613", None)]
  {
    DatedExamples();
  }

  /**
   * `_runner_cms`'s loop body: a CMS pass, then the sleep. An exception from
   * `fetch` is caught: what was yielded before it stays handled and the
   * pass still ends in the sleep.
   */
  method CmsCycle(store: ListingStore, feed: Fetched<Announcement>) returns (trace: seq<Effect>, end: CycleEnd)
    modifies store
    ensures store.rows == CmsRun(old(store.rows), feed.yielded).rows
    ensures trace == CmsTrace(CmsRun(old(store.rows), feed.yielded).emitted)
    ensures end == Slept
  {
    var anns := feed.yielded;
    ghost var rows0 := store.rows;
    ghost var notified: seq<Announcement> := [];
    trace := [];
    var i := 0;
    while i < |anns|
      invariant 0 <= i <= |anns|
      invariant CmsRun(rows0, anns[..i]) == Outcome(store.rows, notified)
      invariant trace == CmsTrace(notified)
    {
      var ann := anns[i];
      assert anns[..i + 1][..i] == anns[..i];
      var seen := store.AlreadySeen(ann.exchange, ann.symbol, UnknownMarket);
      if !seen {
        var msg := FormatCmsMessage(ann);
        trace := trace + [Sent(msg)];
        store.MarkSeen(ann.exchange, ann.symbol, UnknownMarket, CmsSource);
        trace := trace + [Mark(CmsKey(ann), CmsSource)];
        notified := notified + [ann];
      }
      i := i + 1;
    }
    assert anns[..i] == anns;
    end := Slept;
  }

  // ───────────────────────── bootstrap ─────────────────────────

  /** Bootstrap's REST step for one exchange: every non-dated symbol inserted with source `api`. */
  function SeedApi(exchange: string, rows: map<Key, string>, syms: seq<ApiSymbol>): (r: map<Key, string>)
    ensures forall k :: k in r && k !in rows ==> k.0 == exchange && r[k] == ApiSource
    decreases |syms|
  {
    if syms == [] then rows
    else
      var r := SeedApi(exchange, rows, syms[..|syms| - 1]);
      var s := syms[|syms| - 1];
      if IsDatedSymbol(s.name) then r else Inserted(r, ApiKey(exchange, s), ApiSource)
  }

  /**
   * Bootstrap's CMS step: an announcement whose symbol is stored under any
   * market is skipped, any other is stored under `Unknown` with source `cms`.
   */
  function SeedCms(rows: map<Key, string>, anns: seq<Announcement>): (r: map<Key, string>)
    ensures forall k :: k in r && k !in rows ==> k.2 == UnknownMarket
    decreases |anns|
  {
    if anns == [] then rows
    else
      var r := SeedCms(rows, anns[..|anns| - 1]);
      var a := anns[|anns| - 1];
      if HasSymbol(r, a.exchange, a.symbol) then r else Inserted(r, CmsKey(a), CmsSource)
  }

  /** The REST announcers in order; the first `fetch` that raises stops bootstrap. */
  function BootApi(rows: map<Key, string>, feeds: seq<ApiFeed>): (b: Boot)
    ensures b.error.None? <==> forall i :: 0 <= i < |feeds| ==> feeds[i].fetched.error.None?
    ensures b.error.Some? ==> exists i :: 0 <= i < |feeds| && FirstRaise(feeds, i) && b.error == feeds[i].fetched.error
    decreases |feeds|
  {
    if feeds == [] then Boot(rows, None)
    else
      var r := SeedApi(feeds[0].exchange, rows, feeds[0].fetched.yielded);
      if feeds[0].fetched.error.Some? then
        assert FirstRaise(feeds, 0);
        Boot(r, feeds[0].fetched.error)
      else
        var b := BootApi(r, feeds[1..]);
        assert forall i :: 1 <= i < |feeds| ==> feeds[1..][i - 1] == feeds[i];
        assert forall i :: 0 <= i < |feeds| - 1 && FirstRaise(feeds[1..], i) ==> FirstRaise(feeds, i + 1);
        b
  }

  /** Feed `i` is the first REST feed whose `fetch` raised. */
  predicate FirstRaise(feeds: seq<ApiFeed>, i: nat) {
    i < |feeds| && feeds[i].fetched.error.Some? && forall j :: 0 <= j < i ==> feeds[j].fetched.error.None?
  }

  /** The CMS announcers in order; the first `fetch` that raises stops bootstrap. */
  function BootCms(rows: map<Key, string>, feeds: seq<Fetched<Announcement>>): (b: Boot)
    ensures b.error.None? <==> forall i :: 0 <= i < |feeds| ==> feeds[i].error.None?
    ensures b.error.Some? ==> exists i :: 0 <= i < |feeds| && FirstCmsRaise(feeds, i) && b.error == feeds[i].error
    decreases |feeds|
  {
    if feeds == [] then Boot(rows, None)
    else
      var r := SeedCms(rows, feeds[0].yielded);
      if feeds[0].error.Some? then
        assert FirstCmsRaise(feeds, 0);
        Boot(r, feeds[0].error)
      else
        var b := BootCms(r, feeds[1..]);
        assert forall i :: 1 <= i < |feeds| ==> feeds[1..][i - 1] == feeds[i];
        assert forall i :: 0 <= i < |feeds| - 1 && FirstCmsRaise(feeds[1..], i) ==> FirstCmsRaise(feeds, i + 1);
        b
  }

  /** Feed `i` is the first CMS feed whose `fetch` raised. */
  predicate FirstCmsRaise(feeds: seq<Fetched<Announcement>>, i: nat) {
    i < |feeds| && feeds[i].error.Some? && forall j :: 0 <= j < i ==> feeds[j].error.None?
  }

  /** `bootstrap`: the REST announcers, then the CMS announcers; it has no handler. */
  function Bootstrap(rows: map<Key, string>, apiFeeds: seq<ApiFeed>, cmsFeeds: seq<Fetched<Announcement>>): (b: Boot)
    ensures b.error.None? <==>
      && (forall i :: 0 <= i < |apiFeeds| ==> apiFeeds[i].fetched.error.None?)
      && (forall i :: 0 <= i < |cmsFeeds| ==> cmsFeeds[i].error.None?)
    ensures (exists i :: 0 <= i < |apiFeeds| && apiFeeds[i].fetched.error.Some?) ==> b == BootApi(rows, apiFeeds)
  {
    var b := BootApi(rows, apiFeeds);
    if b.error.Some? then b else BootCms(b.rows, cmsFeeds)
  }

  /** Every row has the given source. */
  predicate AllFrom(rows: map<Key, string>, source: string) {
    forall k :: k in rows ==> rows[k] == source
  }

  /**
   * The REST step keeps earlier rows, stores every non-dated symbol, adds
   * only `api` rows, and adds a row only for a non-dated symbol it was given.
   */
  lemma {:induction false} SeedApiSpec(exchange: string, rows: map<Key, string>, syms: seq<ApiSymbol>)
    ensures Extends(rows, SeedApi(exchange, rows, syms))
    ensures forall s :: s in syms && !IsDatedSymbol(s.name) ==> ApiKey(exchange, s) in SeedApi(exchange, rows, syms)
    ensures forall k :: k in SeedApi(exchange, rows, syms) && k !in rows ==>
      exists s :: s in syms && !IsDatedSymbol(s.name) && k == ApiKey(exchange, s)
    ensures AllFrom(rows, ApiSource) ==> AllFrom(SeedApi(exchange, rows, syms), ApiSource)
    decreases |syms|
  {
    if syms != [] {
      var init := syms[..|syms| - 1];
      var last := syms[|syms| - 1];
      SeedApiSpec(exchange, rows, init);
      assert forall s :: s in init ==> s in syms;
      assert syms == init + [last];
      assert last in syms;
    }
  }

  /** The CMS step keeps earlier rows. */
  lemma {:induction false} SeedCmsGrows(rows: map<Key, string>, anns: seq<Announcement>)
    ensures Extends(rows, SeedCms(rows, anns))
    decreases |anns|
  {
    if anns != [] {
      SeedCmsGrows(rows, anns[..|anns| - 1]);
    }
  }

  /** After the CMS step every announced symbol is stored under some market. */
  lemma {:induction false} SeedCmsCovers(rows: map<Key, string>, anns: seq<Announcement>)
    ensures forall a :: a in anns ==> HasSymbol(SeedCms(rows, anns), a.exchange, a.symbol)
    decreases |anns|
  {
    if anns != [] {
      var init := anns[..|anns| - 1];
      var a := anns[|anns| - 1];
      SeedCmsCovers(rows, init);
      var r := SeedCms(rows, init);
      var r' := SeedCms(rows, anns);
      assert Extends(r, r');
      assert anns == init + [a];
      forall b | b in anns
        ensures HasSymbol(r', b.exchange, b.symbol)
      {
        if b in init {
          HasSymbolKept(r, r', b.exchange, b.symbol);
        } else if !HasSymbol(r, a.exchange, a.symbol) {
          assert CmsKey(a) in r';
        }
      }
    }
  }

  /**
   * A row the CMS step adds is an `Unknown`/`cms` row of an announcement
   * whose symbol was stored under no market before.
   */
  lemma {:induction false} SeedCmsNewRows(rows: map<Key, string>, anns: seq<Announcement>)
    ensures forall k :: k in SeedCms(rows, anns) && k !in rows ==>
      SeedCms(rows, anns)[k] == CmsSource && exists a :: a in anns && k == CmsKey(a) && !HasSymbol(rows, a.exchange, a.symbol)
    decreases |anns|
  {
    if anns != [] {
      var init := anns[..|anns| - 1];
      var a := anns[|anns| - 1];
      SeedCmsNewRows(rows, init);
      SeedCmsGrows(rows, init);
      var r := SeedCms(rows, init);
      assert forall b :: b in init ==> b in anns;
      if !HasSymbol(r, a.exchange, a.symbol) {
        assert a in anns;
        assert !HasSymbol(rows, a.exchange, a.symbol) by {
          if HasSymbol(rows, a.exchange, a.symbol) {
            HasSymbolKept(rows, r, a.exchange, a.symbol);
          }
        }
      }
    }
  }

  /** Whatever stops it, bootstrap keeps every row that was there. */
  lemma {:induction false} BootApiGrows(rows: map<Key, string>, feeds: seq<ApiFeed>)
    ensures Extends(rows, BootApi(rows, feeds).rows)
    ensures AllFrom(rows, ApiSource) ==> AllFrom(BootApi(rows, feeds).rows, ApiSource)
    decreases |feeds|
  {
    if feeds != [] {
      var r := SeedApi(feeds[0].exchange, rows, feeds[0].fetched.yielded);
      SeedApiSpec(feeds[0].exchange, rows, feeds[0].fetched.yielded);
      if feeds[0].fetched.error.None? {
        BootApiGrows(r, feeds[1..]);
      }
    }
  }

  /** With no exception, the REST phase stores every non-dated symbol of every feed. */
  lemma {:induction false} BootApiStores(rows: map<Key, string>, feeds: seq<ApiFeed>)
    ensures BootApi(rows, feeds).error.None? ==>
      forall f, s :: f in feeds && s in f.fetched.yielded && !IsDatedSymbol(s.name) ==>
        ApiKey(f.exchange, s) in BootApi(rows, feeds).rows
    decreases |feeds|
  {
    if feeds != [] && feeds[0].fetched.error.None? {
      var r := SeedApi(feeds[0].exchange, rows, feeds[0].fetched.yielded);
      SeedApiSpec(feeds[0].exchange, rows, feeds[0].fetched.yielded);
      BootApiStores(r, feeds[1..]);
      BootApiGrows(r, feeds[1..]);
      assert forall f :: f in feeds ==> f == feeds[0] || f in feeds[1..];
    }
  }

  /** Every row the REST phase adds comes from a non-dated symbol some REST announcer yielded. */
  lemma {:induction false} BootApiOnlyNonDated(rows: map<Key, string>, feeds: seq<ApiFeed>)
    ensures forall k :: k in BootApi(rows, feeds).rows && k !in rows ==>
      exists f, s :: f in feeds && s in f.fetched.yielded && !IsDatedSymbol(s.name) && k == ApiKey(f.exchange, s)
    decreases |feeds|
  {
    if feeds != [] {
      var f := feeds[0];
      var r := SeedApi(f.exchange, rows, f.fetched.yielded);
      SeedApiSpec(f.exchange, rows, f.fetched.yielded);
      if f.fetched.error.None? {
        BootApiOnlyNonDated(r, feeds[1..]);
      }
      forall k | k in BootApi(rows, feeds).rows && k !in rows
        ensures exists g, s :: g in feeds && s in g.fetched.yielded && !IsDatedSymbol(s.name) && k == ApiKey(g.exchange, s)
      {
        if k in r {
          var s :| s in f.fetched.yielded && !IsDatedSymbol(s.name) && k == ApiKey(f.exchange, s);
          assert f in feeds;
        } else {
          var g, s :| g in feeds[1..] && s in g.fetched.yielded && !IsDatedSymbol(s.name) && k == ApiKey(g.exchange, s);
          assert g in feeds;
        }
      }
    }
  }

  /** Every row the CMS phase adds has source `cms`. */
  lemma {:induction false} BootCmsNewRows(rows: map<Key, string>, feeds: seq<Fetched<Announcement>>)
    ensures forall k :: k in BootCms(rows, feeds).rows && k !in rows ==> BootCms(rows, feeds).rows[k] == CmsSource
    decreases |feeds|
  {
    if feeds != [] {
      var r := SeedCms(rows, feeds[0].yielded);
      SeedCmsNewRows(rows, feeds[0].yielded);
      if feeds[0].error.None? {
        BootCmsNewRows(r, feeds[1..]);
        BootCmsGrows(r, feeds[1..]);
      }
    }
  }

  /** Whatever stops it, the CMS phase keeps every row that was there. */
  lemma {:induction false} BootCmsGrows(rows: map<Key, string>, feeds: seq<Fetched<Announcement>>)
    ensures Extends(rows, BootCms(rows, feeds).rows)
    decreases |feeds|
  {
    if feeds != [] {
      SeedCmsGrows(rows, feeds[0].yielded);
      if feeds[0].error.None? {
        BootCmsGrows(SeedCms(rows, feeds[0].yielded), feeds[1..]);
      }
    }
  }

  /**
   * Bootstrap from the empty table, when no `fetch` raised: every non-dated
   * REST symbol is stored under its own market with source `api`. Whatever
   * raised, every `api` row is such a symbol, so a dated one is never stored.
   */
  lemma BootstrapStoresApi(apiFeeds: seq<ApiFeed>, cmsFeeds: seq<Fetched<Announcement>>)
    ensures Bootstrap(map[], apiFeeds, cmsFeeds).error.None? ==>
      forall f, s :: f in apiFeeds && s in f.fetched.yielded && !IsDatedSymbol(s.name) ==>
        ApiKey(f.exchange, s) in Bootstrap(map[], apiFeeds, cmsFeeds).rows
        && Bootstrap(map[], apiFeeds, cmsFeeds).rows[ApiKey(f.exchange, s)] == ApiSource
    ensures var rows := Bootstrap(map[], apiFeeds, cmsFeeds).rows;
      forall k :: k in rows && rows[k] == ApiSource ==>
        exists f, s :: f in apiFeeds && s in f.fetched.yielded && !IsDatedSymbol(s.name) && k == ApiKey(f.exchange, s)
  {
    var b := BootApi(map[], apiFeeds);
    BootApiStores(map[], apiFeeds);
    BootApiGrows(map[], apiFeeds);
    BootApiOnlyNonDated(map[], apiFeeds);
    if b.error.None? {
      BootCmsGrows(b.rows, cmsFeeds);
      BootCmsNewRows(b.rows, cmsFeeds);
    }
  }

  /**
   * After a bootstrap in which nothing raised, a REST pass of any bootstrapped
   * exchange that sees the same symbols again sends nothing and writes nothing.
   */
  lemma BootstrapThenApiSilent(apiFeeds: seq<ApiFeed>, cmsFeeds: seq<Fetched<Announcement>>, f: ApiFeed)
    requires f in apiFeeds
    requires Bootstrap(map[], apiFeeds, cmsFeeds).error.None?
    ensures var rows := Bootstrap(map[], apiFeeds, cmsFeeds).rows;
      ApiRun(f.exchange, rows, f.fetched.yielded) == Outcome(rows, [])
  {
    BootstrapStoresApi(apiFeeds, cmsFeeds);
    ApiRunSilent(f.exchange, Bootstrap(map[], apiFeeds, cmsFeeds).rows, f.fetched.yielded);
  }

  /**
   * A symbol already trading is skipped by bootstrap's CMS step, but the
   * steady-state CMS runner looks for the `Unknown` row only, so it
   * announces the symbol on its first pass.
   */
  lemma CmsAfterBootstrapReannounces()
    ensures var ann := Announcement("Binance", "ARB", None);
      var b := Bootstrap(map[], [ApiFeed("Binance", Fetched([ApiSymbol("ARB", "spot")], None))], [Fetched([ann], None)]);
      && b == Boot(map[("Binance", "ARB", "spot") := ApiSource], None)
      && CmsRun(b.rows, [ann]).emitted == [ann]
  {
    DatedIffSuffix("ARB");
    var ann := Announcement("Binance", "ARB", None);
    var rows := map[("Binance", "ARB", "spot") := ApiSource];
    assert SeedApi("Binance", map[], [ApiSymbol("ARB", "spot")]) == rows;
    assert HasSymbol(rows, "Binance", "ARB") by {
      assert ("Binance", "ARB", "spot") in rows;
    }
    assert SeedCms(rows, [ann]) == rows;
    assert ("Binance", "ARB", "Unknown") !in rows;
  }

  /** Bootstrap's REST step for one exchange, on the store. */
  method SeedApiStore(store: ListingStore, exchange: string, syms: seq<ApiSymbol>)
    modifies store
    ensures store.rows == SeedApi(exchange, old(store.rows), syms)
  {
    ghost var rows0 := store.rows;
    var i := 0;
    while i < |syms|
      invariant 0 <= i <= |syms|
      invariant store.rows == SeedApi(exchange, rows0, syms[..i])
    {
      assert syms[..i + 1][..i] == syms[..i];
      if !IsDatedSymbol(syms[i].name) {
        store.MarkSeen(exchange, syms[i].name, syms[i].marketType, ApiSource);
      }
      i := i + 1;
    }
    assert syms[..i] == syms;
  }

  /** Bootstrap's CMS step for one announcer, on the store. */
  method SeedCmsStore(store: ListingStore, anns: seq<Announcement>)
    modifies store
    ensures store.rows == SeedCms(old(store.rows), anns)
  {
    ghost var rows0 := store.rows;
    var i := 0;
    while i < |anns|
      invariant 0 <= i <= |anns|
      invariant store.rows == SeedCms(rows0, anns[..i])
    {
      assert anns[..i + 1][..i] == anns[..i];
      var known := store.SymbolExists(anns[i].exchange, anns[i].symbol);
      if !known {
        store.MarkSeen(anns[i].exchange, anns[i].symbol, UnknownMarket, CmsSource);
      }
      i := i + 1;
    }
    assert anns[..i] == anns;
  }

  /** `bootstrap` on the store: rows only, no message; an exception stops it. */
  method RunBootstrap(store: ListingStore, apiFeeds: seq<ApiFeed>, cmsFeeds: seq<Fetched<Announcement>>)
    returns (error: Option<FetchError>)
    modifies store
    ensures Boot(store.rows, error) == Bootstrap(old(store.rows), apiFeeds, cmsFeeds)
  {
    ghost var rows0 := store.rows;
    var i := 0;
    while i < |apiFeeds|
      invariant 0 <= i <= |apiFeeds|
      invariant BootApi(rows0, apiFeeds) == BootApi(store.rows, apiFeeds[i..])
    {
      assert apiFeeds[i..][1..] == apiFeeds[i + 1..];
      SeedApiStore(store, apiFeeds[i].exchange, apiFeeds[i].fetched.yielded);
      if apiFeeds[i].fetched.error.Some? {
        return apiFeeds[i].fetched.error;
      }
      i := i + 1;
    }
    var j := 0;
    while j < |cmsFeeds|
      invariant 0 <= j <= |cmsFeeds|
      invariant Bootstrap(rows0, apiFeeds, cmsFeeds) == BootCms(store.rows, cmsFeeds[j..])
    {
      assert cmsFeeds[j..][1..] == cmsFeeds[j + 1..];
      SeedCmsStore(store, cmsFeeds[j].yielded);
      if cmsFeeds[j].error.Some? {
        return cmsFeeds[j].error;
      }
      j := j + 1;
    }
    error := None;
  }

  /**
   * The start of `main`: bootstrap runs exactly when the table is empty;
   * otherwise the table is left as it is.
   */
  method StartUp(store: ListingStore, apiFeeds: seq<ApiFeed>, cmsFeeds: seq<Fetched<Announcement>>)
    returns (bootstrapped: bool, error: Option<FetchError>)
    modifies store
    ensures bootstrapped <==> old(store.rows) == map[]
    ensures bootstrapped ==> Boot(store.rows, error) == Bootstrap(map[], apiFeeds, cmsFeeds)
    ensures !bootstrapped ==> store.rows == old(store.rows) && error.None?
  {
    var empty := store.IsEmpty();
    bootstrapped := empty;
    error := None;
    if empty {
      error := RunBootstrap(store, apiFeeds, cmsFeeds);
    }
  }
}

=== FILE: store.dfy ===
/**
 * The `listings` table of `bot/db.py`: one row per
 * `(exchange, symbol, market)` key, holding the `source` that first wrote it.
 * The uniqueness constraint is the map's own: a key has at most one value.
 */
module SeenStore {

  /** `(exchange, symbol, market)`: the table's UNIQUE key. */
  type Key = (string, string, string)

  /** The table after `INSERT OR IGNORE` of key `k` with source `src`. */
  function Inserted(rows: map<Key, string>, k: Key, src: string): (r: map<Key, string>)
    ensures k in r
    ensures k in rows ==> r == rows
    ensures k !in rows ==> r[k] == src && r.Keys == rows.Keys + {k}
    ensures Extends(rows, r)
  {
    if k in rows then rows else rows[k := src]
  }

  /** `after` keeps every row of `before` with its source: nothing removed or edited. */
  predicate Extends(before: map<Key, string>, after: map<Key, string>) {
    forall k :: k in before ==> k in after && after[k] == before[k]
  }

  /** Some row exists for `(exchange, symbol)` under any market. */
  predicate HasSymbol(rows: map<Key, string>, exchange: string, symbol: string) {
    exists k :: k in rows && k.0 == exchange && k.1 == symbol
  }

  /** Inserting the same key twice leaves what inserting it once leaves, whatever the second source. */
  lemma InsertIdempotent(rows: map<Key, string>, k: Key, src: string, src2: string)
    ensures Inserted(Inserted(rows, k, src), k, src2) == Inserted(rows, k, src)
  {
  }

  /** The row count grows by one exactly when the key is new, so no key is ever stored twice. */
  lemma InsertCount(rows: map<Key, string>, k: Key, src: string)
    ensures |Inserted(rows, k, src)| == if k in rows then |rows| else |rows| + 1
  {
    if k !in rows {
      assert Inserted(rows, k, src).Keys == rows.Keys + {k};
    }
  }

  /** A stored symbol stays findable under any market. */
  lemma HasSymbolKept(rows: map<Key, string>, after: map<Key, string>, exchange: string, symbol: string)
    requires Extends(rows, after) && HasSymbol(rows, exchange, symbol)
    ensures HasSymbol(after, exchange, symbol)
  {
    var k :| k in rows && k.0 == exchange && k.1 == symbol;
    assert k in after;
  }

  /** The listings table behind a database connection. */
  class ListingStore {
    var rows: map<Key, string>

    /** A freshly created table (the schema applied to a new file). */
    constructor()
      ensures rows == map[]
    {
      rows := map[];
    }

    /** `db_is_empty`: no row at all; reads only. */
    method IsEmpty() returns (empty: bool)
      ensures empty <==> rows == map[]
    {
      empty := |rows| == 0;
    }

    /** `already_seen`: the exact key is stored; reads only. */
    method AlreadySeen(exchange: string, symbol: string, market: string) returns (seen: bool)
      ensures seen <==> (exchange, symbol, market) in rows
    {
      seen := (exchange, symbol, market) in rows;
    }

    /**
     * `symbol_exists`, which `bot/db.py` does not define: the meaning its
     * call site needs, a row for `(exchange, symbol)` under any market.
     */
    method SymbolExists(exchange: string, symbol: string) returns (found: bool)
      ensures found <==> HasSymbol(rows, exchange, symbol)
    {
      found := exists k | k in rows :: k.0 == exchange && k.1 == symbol;
    }

    /**
     * `mark_seen`: `INSERT OR IGNORE`. A new key is stored with `source`; an
     * existing row, its source included, is left alone; afterwards the key
     * is seen and the table is not empty.
     */
    method MarkSeen(exchange: string, symbol: string, market: string, source: string)
      modifies this
      ensures rows == Inserted(old(rows), (exchange, symbol, market), source)
      ensures (exchange, symbol, market) in rows && rows != map[]
      ensures Extends(old(rows), rows)
    {
      var k := (exchange, symbol, market);
      if k !in rows {
        rows := rows[k := source];
      }
    }
  }
}

=== FILE: text.dfy ===
/**
 * The character classes and string operations the announcers' regular
 * expressions and the messages rely on, with Python's meaning.
 *
 * Letters, case folding (`re.IGNORECASE`, `str.upper`) and word characters
 * (`\b`) are the ASCII ones; `\s` is Python's full whitespace class.
 */
module Text {
  import opened Wrappers

  predicate IsDigit(c: char) { '0' <= c <= '9' }
  predicate IsUpperLetter(c: char) { 'A' <= c <= 'Z' }
  predicate IsLowerLetter(c: char) { 'a' <= c <= 'z' }

  /** Case folding used by case-insensitive matching. */
  function Lower(c: char): char {
    if IsUpperLetter(c) then (c as int + 32) as char else c
  }

  /** `str.upper` on one character. */
  function UpperChar(c: char): char {
    if IsLowerLetter(c) then (c as int - 32) as char else c
  }

  /** `str.upper`. */
  function ToUpper(s: string): (r: string)
    ensures |r| == |s|
    ensures forall i :: 0 <= i < |s| ==> !IsLowerLetter(r[i]) && Lower(r[i]) == Lower(s[i])
  {
    seq(|s|, i requires 0 <= i < |s| => UpperChar(s[i]))
  }

  /** The literal `lit` occurs at position `i` of `t`, ignoring case. */
  predicate CiLitAt(t: string, i: nat, lit: string) {
    i + |lit| <= |t| && forall j :: 0 <= j < |lit| ==> Lower(t[i + j]) == Lower(lit[j])
  }

  /** `\s`: the characters for which Python's `str.isspace` holds. */
  predicate IsSpace(c: char) {
    || '\t' <= c <= '\r'
    || '\U{1C}' <= c <= '\U{1F}'
    || c == ' '
    || c == '\U{85}'
    || c == '\U{A0}'
    || c == '\U{1680}'
    || '\U{2000}' <= c <= '\U{200A}'
    || c == '\U{2028}'
    || c == '\U{2029}'
    || c == '\U{202F}'
    || c == '\U{205F}'
    || c == '\U{3000}'
  }

  /** `\w`: letters, digits and the underscore. */
  predicate IsWordChar(c: char) {
    IsUpperLetter(c) || IsLowerLetter(c) || IsDigit(c) || c == '_'
  }

  /** `\b` at position `p`: a word character on exactly one side. */
  predicate Boundary(t: string, p: nat) {
    (0 < p <= |t| && IsWordChar(t[p - 1])) != (p < |t| && IsWordChar(t[p]))
  }

  /** The length of the run of whitespace starting at `i`: what a greedy `\s+` consumes. */
  function SpaceRun(t: string, i: nat): (n: nat)
    requires i <= |t|
    ensures i + n <= |t|
    ensures forall j :: i <= j < i + n ==> IsSpace(t[j])
    ensures i + n == |t| || !IsSpace(t[i + n])
    decreases |t| - i
  {
    if i == |t| || !IsSpace(t[i]) then 0 else 1 + SpaceRun(t, i + 1)
  }

  predicate StartsWith(s: string, prefix: string) {
    |prefix| <= |s| && s[..|prefix|] == prefix
  }

  predicate EndsWith(s: string, suffix: string) {
    |suffix| <= |s| && s[|s| - |suffix|..] == suffix
  }

  /** Python's `s[:-n]`; note that `s[:-0]` is empty. */
  function DropLast(s: string, n: nat): (r: string)
    ensures r <= s
    ensures 0 < n <= |s| ==> r + s[|s| - n..] == s
  {
    if n == 0 || n >= |s| then [] else s[..|s| - n]
  }

  function DigitChar(d: nat): char
    requires d < 10
  {
    ('0' as int + d) as char
  }

  /** Python's `str` of a non-negative integer: decimal, no leading zero. */
  function NatToDecimal(n: nat): (r: string)
    ensures |r| >= 1
    ensures forall i :: 0 <= i < |r| ==> IsDigit(r[i])
    ensures n > 0 ==> r[0] != '0'
    ensures n == 0 ==> r == "0"
    decreases n
  {
    if n < 10 then [DigitChar(n)] else NatToDecimal(n / 10) + [DigitChar(n % 10)]
  }

  /** The number a string of digits denotes. */
  function DecimalValue(s: string): nat
    requires forall i :: 0 <= i < |s| ==> IsDigit(s[i])
  {
    if s == [] then 0
    else
      assert IsDigit(s[|s| - 1]);
      DecimalValue(s[..|s| - 1]) * 10 + (s[|s| - 1] as int - '0' as int)
  }

  /** Rendering a number in decimal loses nothing. */
  lemma {:induction false} DecimalRoundTrip(n: nat)
    ensures DecimalValue(NatToDecimal(n)) == n
  {
    if n >= 10 {
      var r := NatToDecimal(n);
      assert r[..|r| - 1] == NatToDecimal(n / 10);
      DecimalRoundTrip(n / 10);
    }
  }

  /** Python's `str` of an integer. */
  function IntToDecimal(n: int): string {
    if n < 0 then "-" + NatToDecimal(-n) else NatToDecimal(n)
  }

  /** Python's truth value of a decoded JSON value (`None` is false). */
  predicate Truthy(v: Option<Scalar>) {
    match v
    case None => false
    case Some(Str(s)) => s != ""
    case Some(Int(n)) => n != 0
    case Some(Bool(b)) => b
  }

  /** Python's `str(v)`, which is also what an f-string interpolates. */
  function PyStr(v: Option<Scalar>): string {
    match v
    case None => "None"
    case Some(Str(s)) => s
    case Some(Int(n)) => IntToDecimal(n)
    case Some(Bool(b)) => if b then "True" else "False"
  }

  /** Only a string value renders as a zero-padded number. */
  lemma PyStrZeroPadded(v: Option<Scalar>)
    ensures PyStr(v) == "00000" <==> v == Some(Str("00000"))
  {
    if v.Some? && v.value.Int? {
      var n := v.value.n;
      if n < 0 {
        assert PyStr(v)[0] == '-';
      } else {
        assert n > 0 ==> NatToDecimal(n)[0] != '0';
      }
    }
  }

  /**
   * `Will\s+<word>` at position `i`, with `\s+` taking the whole run of
   * whitespace as the greedy repetition does.
   */
  predicate WillThenAt(t: string, i: nat, word: string) {
    && CiLitAt(t, i, "will")
    && SpaceRun(t, i + 4) >= 1
    && CiLitAt(t, i + 4 + SpaceRun(t, i + 4), word)
  }

  /** Where `Will\s+<word>` ends when it matches at `i`. */
  function WillThenEnd(t: string, i: nat, word: string): nat
    requires CiLitAt(t, i, "will")
  {
    i + 4 + SpaceRun(t, i + 4) + |word|
  }

  /** `Will`, then exactly `n` whitespace characters, then `word`. */
  predicate WillSplitAt(t: string, i: nat, n: nat, word: string) {
    && 1 <= n
    && CiLitAt(t, i, "will")
    && i + 4 + n <= |t|
    && (forall j :: i + 4 <= j < i + 4 + n ==> IsSpace(t[j]))
    && CiLitAt(t, i + 4 + n, word)
  }

  /**
   * Backtracking into `\s+` gains nothing: when the word starts with a
   * letter, the greedy run is the only split that can be followed by it.
   */
  lemma WillThenSplit(t: string, i: nat, word: string)
    requires word != [] && (IsUpperLetter(word[0]) || IsLowerLetter(word[0]))
    ensures WillThenAt(t, i, word) <==> exists n: nat :: WillSplitAt(t, i, n, word)
    ensures forall n: nat :: WillSplitAt(t, i, n, word) ==> n == SpaceRun(t, i + 4)
  {
    if WillThenAt(t, i, word) {
      assert WillSplitAt(t, i, SpaceRun(t, i + 4), word);
    }
    forall n: nat | WillSplitAt(t, i, n, word) ensures n == SpaceRun(t, i + 4) {
      assert Lower(t[i + 4 + n]) == Lower(word[0]);
    }
  }
}

=== FILE: ticker.dfy ===
/**
 * The ticker extraction shared by the four announcement scrapers:
 *
 *   TICKER_RX = \((?P<sym>[A-Z0-9_-]{2,15})\) | (?P<pair>[A-Z0-9_-]{2,15})(?:Q1|Q2|...)
 *
 * compiled with IGNORECASE and applied with `search` (leftmost match, first
 * alternative first, greedy repetition with backtracking), then upper-cased,
 * then stripped of at most one quote-currency suffix. The quote list
 * `quotes` is both the regex's `(?:...)` alternatives and the `SUFFIXES`
 * tuple of each scraper.
 */
module Ticker {
  import opened Wrappers
  import opened Text

  const MinLen: nat := 2
  const MaxLen: nat := 15

  /** `[A-Z0-9_-]` under IGNORECASE. */
  predicate IsTickerChar(c: char) {
    IsUpperLetter(c) || IsLowerLetter(c) || IsDigit(c) || c == '_' || c == '-'
  }

  /** `[A-Z0-9_-]` after upper-casing: no lower-case letter left. */
  predicate IsSymbolChar(c: char) {
    IsUpperLetter(c) || IsDigit(c) || c == '_' || c == '-'
  }

  /** Position `j` of `t` holds a ticker character. */
  predicate TickerAt(t: string, j: int) {
    0 <= j < |t| && IsTickerChar(t[j])
  }

  predicate AllTicker(t: string, lo: nat, hi: nat)
    requires lo <= hi <= |t|
  {
    forall j :: lo <= j < hi ==> TickerAt(t, j)
  }

  /** What a greedy `[A-Z0-9_-]{..cap}` consumes from position `i`. */
  function RunLength(t: string, i: nat, cap: nat): (n: nat)
    requires i <= |t|
    ensures n <= cap && i + n <= |t|
    ensures AllTicker(t, i, i + n)
    ensures n < cap && i + n < |t| ==> !IsTickerChar(t[i + n])
    decreases cap
  {
    if cap == 0 || i == |t| || !IsTickerChar(t[i]) then 0 else 1 + RunLength(t, i + 1, cap - 1)
  }

  /** `(?:Q1|Q2|...)` matches at position `p`. */
  predicate QuoteAt(t: string, p: nat, quotes: seq<string>) {
    exists j | 0 <= j < |quotes| :: CiLitAt(t, p, quotes[j])
  }

  /** The first alternative can match at `i` with a `sym` group of `k` characters. */
  predicate ParenFits(t: string, i: nat, k: nat) {
    && MinLen <= k <= MaxLen
    && i + k + 2 <= |t|
    && t[i] == '('
    && AllTicker(t, i + 1, i + 1 + k)
    && t[i + 1 + k] == ')'
  }

  /** The second alternative can match at `i` with a `pair` group of `k` characters. */
  predicate PairFits(t: string, i: nat, k: nat, quotes: seq<string>) {
    && MinLen <= k <= MaxLen
    && i + k <= |t|
    && AllTicker(t, i, i + k)
    && QuoteAt(t, i + k, quotes)
  }

  /** Some alternative can match at position `i`. */
  predicate MatchesAt(t: string, i: nat, quotes: seq<string>) {
    exists k | 0 <= k <= MaxLen :: ParenFits(t, i, k) || PairFits(t, i, k, quotes)
  }

  /** A successful search: where it matched, the captured group, and which alternative. */
  datatype TickerMatch = TickerMatch(start: nat, group: string, paren: bool)

  /** The first alternative tried at `i`: the group length it captures. */
  function ParenAt(t: string, i: nat): Option<nat> {
    if i < |t| && t[i] == '(' then
      var n := RunLength(t, i + 1, MaxLen);
      if MinLen <= n && i + 1 + n < |t| && t[i + 1 + n] == ')' then Some(n) else None
    else
      None
  }

  /** `(` then a maximal run then `)`: the only group length that can fit. */
  lemma ParenAtSpec(t: string, i: nat)
    ensures forall k: nat :: ParenAt(t, i) == Some(k) <==> ParenFits(t, i, k)
  {
    if i < |t| {
      var n := RunLength(t, i + 1, MaxLen);
      forall k: nat | ParenFits(t, i, k) ensures n == k {
        assert n < k ==> TickerAt(t, i + 1 + n);
        assert k < n ==> TickerAt(t, i + 1 + k);
      }
    }
  }

  /** Backtracking of the greedy `{2,15}`: try group lengths k, k-1, ..., 2. */
  function PairFrom(t: string, i: nat, k: nat, quotes: seq<string>): (r: Option<nat>)
    requires k <= MaxLen && i + k <= |t| && AllTicker(t, i, i + k)
    ensures r.Some? ==> r.value <= k && PairFits(t, i, r.value, quotes)
    ensures r.Some? ==> forall m: nat :: r.value < m <= k ==> !PairFits(t, i, m, quotes)
    ensures r.None? ==> forall m: nat :: m <= k ==> !PairFits(t, i, m, quotes)
    decreases k
  {
    if k < MinLen then None
    else if QuoteAt(t, i + k, quotes) then Some(k)
    else PairFrom(t, i, k - 1, quotes)
  }

  /** The second alternative tried at `i`: the longest group followed by a quote. */
  function PairAt(t: string, i: nat, quotes: seq<string>): Option<nat>
    requires i <= |t|
  {
    PairFrom(t, i, RunLength(t, i, MaxLen), quotes)
  }

  /** Greedy repetition with backtracking picks the longest group length that fits. */
  lemma PairAtSpec(t: string, i: nat, quotes: seq<string>)
    requires i <= |t|
    ensures forall k: nat :: PairAt(t, i, quotes) == Some(k) <==>
      PairFits(t, i, k, quotes) && forall m: nat :: k < m ==> !PairFits(t, i, m, quotes)
  {
    var n := RunLength(t, i, MaxLen);
    forall m: nat | PairFits(t, i, m, quotes) ensures m <= n {
      assert n < m ==> TickerAt(t, i + n);
    }
  }

  /** The regex attempted at position `i`: first alternative, then second. */
  function MatchAt(t: string, i: nat, quotes: seq<string>): (r: Option<TickerMatch>)
    requires i <= |t|
    ensures r.Some? ==> r.value.start == i
  {
    match ParenAt(t, i)
    case Some(k) => Some(TickerMatch(i, t[i + 1..i + 1 + k], true))
    case None =>
      match PairAt(t, i, quotes)
      case Some(k) => Some(TickerMatch(i, t[i..i + k], false))
      case None => None
  }

  /**
   * An attempt at `i` succeeds exactly when some alternative fits; it prefers
   * the parenthesised form, and the bare form takes the longest group.
   */
  lemma MatchAtSpec(t: string, i: nat, quotes: seq<string>)
    requires i <= |t|
    ensures MatchAt(t, i, quotes).Some? <==> MatchesAt(t, i, quotes)
    ensures var r := MatchAt(t, i, quotes);
      r.Some? ==> MinLen <= |r.value.group| <= MaxLen && forall j :: 0 <= j < |r.value.group| ==> IsTickerChar(r.value.group[j])
    ensures var r := MatchAt(t, i, quotes);
      r.Some? && r.value.paren ==> ParenFits(t, i, |r.value.group|) && r.value.group == t[i + 1..i + 1 + |r.value.group|]
    ensures var r := MatchAt(t, i, quotes);
      r.Some? && !r.value.paren ==>
        && PairFits(t, i, |r.value.group|, quotes)
        && (forall k: nat :: !ParenFits(t, i, k))
        && r.value.group == t[i..i + |r.value.group|]
        && forall m: nat :: |r.value.group| < m ==> !PairFits(t, i, m, quotes)
  {
    match ParenAt(t, i)
    case Some(k) =>
      ParenCase(t, i, k, quotes);
      var g := t[i + 1..i + 1 + k];
      forall j | 0 <= j < |g| ensures IsTickerChar(g[j]) {
        assert TickerAt(t, i + 1 + j);
      }
    case None =>
      match PairAt(t, i, quotes)
      case Some(k) =>
        PairCase(t, i, k, quotes);
        var g := t[i..i + k];
        forall j | 0 <= j < |g| ensures IsTickerChar(g[j]) {
          assert TickerAt(t, i + j);
        }
      case None =>
        NoCase(t, i, quotes);
  }

  /** The parenthesised form fits at `i`, so the attempt takes it. */
  lemma ParenCase(t: string, i: nat, k: nat, quotes: seq<string>)
    requires i <= |t| && ParenAt(t, i) == Some(k)
    ensures ParenFits(t, i, k) && MatchesAt(t, i, quotes)
    ensures MatchAt(t, i, quotes) == Some(TickerMatch(i, t[i + 1..i + 1 + k], true))
  {
    ParenAtSpec(t, i);
  }

  /** Only the bare form fits at `i`, so the attempt takes its longest group. */
  lemma PairCase(t: string, i: nat, k: nat, quotes: seq<string>)
    requires i <= |t| && ParenAt(t, i).None? && PairAt(t, i, quotes) == Some(k)
    ensures PairFits(t, i, k, quotes) && MatchesAt(t, i, quotes)
    ensures forall k': nat :: !ParenFits(t, i, k')
    ensures forall m: nat :: k < m ==> !PairFits(t, i, m, quotes)
    ensures MatchAt(t, i, quotes) == Some(TickerMatch(i, t[i..i + k], false))
  {
    PairTaken(t, i, k, quotes);
    ParenAtSpec(t, i);
    PairAtSpec(t, i, quotes);
  }

  /** What the attempt reports when only the bare form fits. */
  lemma PairTaken(t: string, i: nat, k: nat, quotes: seq<string>)
    requires i <= |t| && ParenAt(t, i).None? && PairAt(t, i, quotes) == Some(k)
    ensures MatchAt(t, i, quotes) == Some(TickerMatch(i, t[i..i + k], false))
  {
    var pair := PairAt(t, i, quotes);
    assert MatchAt(t, i, quotes) == Some(TickerMatch(i, t[i..i + pair.value], false));
  }

  /** Neither alternative fits at `i`. */
  lemma NoCase(t: string, i: nat, quotes: seq<string>)
    requires i <= |t| && ParenAt(t, i).None? && PairAt(t, i, quotes).None?
    ensures !MatchesAt(t, i, quotes)
  {
    ParenAtSpec(t, i);
    PairAtSpec(t, i, quotes);
    forall k: nat | PairFits(t, i, k, quotes) ensures false {
      MaximalFit(t, i, k, quotes);
    }
  }

  /** Among the finitely many group lengths that fit, one is the longest. */
  lemma {:induction false} MaximalFit(t: string, i: nat, k: nat, quotes: seq<string>)
    requires PairFits(t, i, k, quotes)
    ensures exists m: nat :: PairFits(t, i, m, quotes) && m <= MaxLen && forall m': nat :: m < m' ==> !PairFits(t, i, m', quotes)
    decreases MaxLen - k
  {
    if exists m': nat :: k < m' && PairFits(t, i, m', quotes) {
      var m': nat :| k < m' && PairFits(t, i, m', quotes);
      MaximalFit(t, i, m', quotes);
    }
  }

  /** `TICKER_RX.search(t)` started at position `i`: the leftmost match. */
  function SearchFrom(t: string, i: nat, quotes: seq<string>): (r: Option<TickerMatch>)
    requires i <= |t|
    ensures r.Some? ==> i <= r.value.start <= |t| && MatchAt(t, r.value.start, quotes) == r
    ensures r.Some? ==> forall j :: i <= j < r.value.start ==> MatchAt(t, j, quotes).None?
    ensures r.None? ==> forall j :: i <= j <= |t| ==> MatchAt(t, j, quotes).None?
    decreases |t| - i
  {
    var here := MatchAt(t, i, quotes);
    if here.Some? then here
    else if i == |t| then None
    else SearchFrom(t, i + 1, quotes)
  }

  /** `TICKER_RX.search(t)`. */
  function Search(t: string, quotes: seq<string>): (r: Option<TickerMatch>)
    ensures r.Some? ==> r.value.start <= |t| && MinLen <= |r.value.group| <= MaxLen
    ensures r.Some? ==> forall j :: 0 <= j < |r.value.group| ==> IsTickerChar(r.value.group[j])
  {
    var r := SearchFrom(t, 0, quotes);
    if r.Some? then MatchAtSpec(t, r.value.start, quotes); r else r
  }

  /** The search finds the leftmost position where the pattern can match, or reports that there is none. */
  lemma SearchLeftmost(t: string, quotes: seq<string>)
    ensures Search(t, quotes).Some? ==> MatchesAt(t, Search(t, quotes).value.start, quotes)
    ensures Search(t, quotes).Some? ==> forall j :: 0 <= j < Search(t, quotes).value.start ==> !MatchesAt(t, j, quotes)
    ensures Search(t, quotes).None? <==> forall j :: 0 <= j <= |t| ==> !MatchesAt(t, j, quotes)
  {
    var r := Search(t, quotes);
    if r.Some? {
      MatchAtSpec(t, r.value.start, quotes);
      forall j | 0 <= j < r.value.start ensures !MatchesAt(t, j, quotes) {
        MatchAtSpec(t, j, quotes);
      }
    } else {
      forall j | 0 <= j <= |t| ensures !MatchesAt(t, j, quotes) {
        MatchAtSpec(t, j, quotes);
      }
    }
  }

  /**
   * The suffix loop of the scrapers from entry `i` on: `raw` without the
   * first of `suffixes[i..]` that it ends with, or `raw` itself when none does.
   */
  function StripFrom(raw: string, suffixes: seq<string>, i: nat): (r: string)
    requires i <= |suffixes|
    ensures r <= raw
    ensures (forall j :: i <= j < |suffixes| ==> !EndsWith(raw, suffixes[j])) ==> r == raw
    ensures forall j: nat :: FirstSuffix(raw, suffixes, i, j) ==> r == DropLast(raw, |suffixes[j]|)
    decreases |suffixes| - i
  {
    if i == |suffixes| then raw
    else if EndsWith(raw, suffixes[i]) then
      assert forall j: nat :: FirstSuffix(raw, suffixes, i, j) ==> j == i;
      DropLast(raw, |suffixes[i]|)
    else
      assert forall j: nat :: FirstSuffix(raw, suffixes, i, j) ==> FirstSuffix(raw, suffixes, i + 1, j);
      StripFrom(raw, suffixes, i + 1)
  }

  /** `suffixes[j]` is the first entry from index `i` on that `raw` ends with. */
  predicate FirstSuffix(raw: string, suffixes: seq<string>, i: nat, j: nat) {
    && i <= j < |suffixes|
    && EndsWith(raw, suffixes[j])
    && forall k :: i <= k < j ==> !EndsWith(raw, suffixes[k])
  }

  /** The suffix loop as the scrapers run it. */
  method StripSuffix(raw: string, suffixes: seq<string>) returns (r: string)
    ensures r == StripFrom(raw, suffixes, 0)
  {
    r := raw;
    var i := 0;
    while i < |suffixes|
      invariant 0 <= i <= |suffixes|
      invariant r == raw
      invariant StripFrom(raw, suffixes, i) == StripFrom(raw, suffixes, 0)
    {
      if EndsWith(r, suffixes[i]) {
        r := DropLast(r, |suffixes[i]|);
        return;
      }
      i := i + 1;
    }
  }

  /** With non-empty suffixes, stripping removes exactly the first suffix that fits. */
  lemma StripRemovesOne(raw: string, suffixes: seq<string>)
    requires forall j :: 0 <= j < |suffixes| ==> suffixes[j] != []
    ensures forall j: nat :: FirstSuffix(raw, suffixes, 0, j) ==> StripFrom(raw, suffixes, 0) + suffixes[j] == raw
  {
  }

  /**
   * The symbol a title yields: the leftmost group, upper-cased, with at most
   * one suffix removed; `None` when the title has no match.
   */
  function ExtractSymbol(title: string, quotes: seq<string>): (r: Option<string>)
    ensures r.Some? <==> Search(title, quotes).Some?
    ensures r.Some? ==> |r.value| <= MaxLen
    ensures r.Some? ==> forall j :: 0 <= j < |r.value| ==> IsSymbolChar(r.value[j])
    ensures r.Some? ==>
      var g := ToUpper(Search(title, quotes).value.group);
      && ((forall j :: 0 <= j < |quotes| ==> !EndsWith(g, quotes[j])) ==> r.value == g)
      && (forall j: nat :: FirstSuffix(g, quotes, 0, j) ==> r.value == DropLast(g, |quotes[j]|))
  {
    match Search(title, quotes)
    case None => None
    case Some(m) =>
      MatchAtSpec(title, m.start, quotes);
      var raw := ToUpper(m.group);
      var s := StripFrom(raw, quotes, 0);
      assert forall j :: 0 <= j < |s| ==> s[j] == raw[j];
      Some(s)
  }

  /** `(USDT)` is a well-formed match whose symbol strips to nothing. */
  lemma QuoteInParensIsEmpty()
    ensures ExtractSymbol("(USDT)", ["USDT", "USDC"]) == Some("")
  {
    var t := "(USDT)";
    var q := ["USDT", "USDC"];
    assert ParenFits(t, 0, 4);
    assert ParenAt(t, 0) == Some(4);
    assert t[1..5] == "USDT";
    var m := TickerMatch(0, "USDT", true);
    assert MatchAt(t, 0, q) == Some(m);
    assert Search(t, q) == Some(m);
    assert ToUpper("USDT") == "USDT";
    assert EndsWith("USDT", q[0]);
  }

  /** Only one suffix is removed, so a doubled quote keeps its first copy. */
  lemma DoubledQuoteKeepsOne()
    ensures ExtractSymbol("(xusdtusdt)", ["USDT", "USDC"]) == Some("XUSDT")
  {
    var t := "(xusdtusdt)";
    var q := ["USDT", "USDC"];
    assert ParenFits(t, 0, 9);
    ParenAtSpec(t, 0);
    var m := TickerMatch(0, t[1..10], true);
    assert MatchAt(t, 0, q) == Some(m);
    assert Search(t, q) == Some(m);
    var raw := ToUpper(t[1..10]);
    assert raw == "XUSDTUSDT";
    assert EndsWith(raw, q[0]);
    assert StripFrom(raw, q, 0) == DropLast(raw, 4) == "XUSDT";
  }

  /** A pair with no parentheses: the greedy group gives back the quote. */
  lemma PairWithoutParens()
    ensures ExtractSymbol("arbusdt", ["USDT", "USDC"]) == Some("ARB")
  {
    var t := "arbusdt";
    var q := ["USDT", "USDC"];
    assert !ParenFits(t, 0, 3);
    assert CiLitAt(t, 3, q[0]);
    assert PairFits(t, 0, 3, q);
    assert forall m: nat :: 3 < m ==> !PairFits(t, 0, m, q);
    assert ParenAt(t, 0) == None;
    assert PairAt(t, 0, q) == Some(3);
    assert t[0..3] == "arb";
    var m := TickerMatch(0, "arb", false);
    assert MatchAt(t, 0, q) == Some(m);
    assert Search(t, q) == Some(m);
    assert ToUpper("arb") == "ARB";
    assert !EndsWith("ARB", q[0]) && !EndsWith("ARB", q[1]);
  }
}

=== FILE: wrappers.dfy ===
/** Small value types shared by the whole model. */
module Wrappers {

  /** Python's `None`-or-value, as returned by `dict.get`. */
  datatype Option<+T> = None | Some(value: T) {
    function GetOr(default: T): T {
      match this
      case Some(v) => v
      case None => default
    }
  }

  /**
   * A JSON scalar as `resp.json()` decodes it: a string, an integer or a
   * boolean. A missing key or a JSON `null` is `None` of `Option<Scalar>`.
   */
  datatype Scalar = Str(s: string) | Int(n: int) | Bool(b: bool)
}
